=== FILE: README.md ===
# Little Kingdom tile map core, in Dafny

This project models the core of BetaVersionOfLittleKingdom, a small SDL2
tile-map viewer. The map comes from a Tiled TMX file. The game draws it
through a camera that the WASD keys move, with an animated knight sprite in
the middle of the window. The model covers:

- `loadTMX` (Game.cpp). Tileset declarations are appended to a registry in
  document order; the first `loadTSX` failure aborts the load. Each layer's
  flat gid list is cut into rows of `mapWidth` gids, and the gid count is
  checked against `mapWidth * mapHeight`. Module `MapLoader`.
- Gid resolution and rectangles (Game.cpp and forAnimation.cpp). A gid
  resolves to the last tileset in registry order whose `firstGid` is at most
  the gid. The source rectangle uses the signed `%` and `/` of C++. The
  destination rectangle is computed in `size_t` and cast back to `int`.
  Module `Tiles`.
- `renderMap`, in both versions. Game.cpp's draws every resolved cell from
  its own gid. forAnimation.cpp's first looks the gid up among the animated
  tiles (first match wins) and, on a hit, cuts the rectangle of the tile's
  current frame. Both are one recursive plan of draws, parametrised by the
  variant, and a three-loop method that computes the same sequence. Module
  `Renderer`.
- `AnimatedTile` and `updateAnimations` (forAnimation.cpp): a per-tile frame
  clock that advances at most one frame per call. Module `TileAnimation`.
- `updatePlayerAnimationFrame` and `renderPlayerAnimation` (player.h). Module
  `Player`.
- From `main` (Game.cpp): the initial camera centring, the key handling, the
  per-frame clamp, and the player draw call. Module `Controls`. Module
  `Game` connects loading and drawing.
- `CInt` holds C++ integer semantics: truncating division and remainder, and
  32-bit and 64-bit wrap-around.

Undefined behaviour in the source becomes a precondition. That covers
division by zero (`tileWidth`, `tileHeight` or the column count is 0; a map
width of 0 with tiles present), `% frames.size()` on an empty frame list,
an out-of-range `frames[currentFrame]`, and signed overflow where the model
tracks it. Each precondition covers only the path that reaches the
operation.

Times are exact `real`s. `updateAnimations` advances a tile at most one
frame per call; there is no catch-up loop (`TileAnimation.NoCatchUp`).

## Model

| member | source | states |
|---|---|---|
| `CInt.DivModIdentity` | BetaVersionOfLittleKingdom/Game.cpp:334-335 | The truncating quotient and remainder used for `tileIndex % cols` and `tileIndex / cols` recompose the dividend. The remainder is smaller than the divisor in magnitude and carries the dividend's sign. |
| `CInt.DivModNonNegative` | BetaVersionOfLittleKingdom/Game.cpp:328-329 | For a non-negative dividend and positive divisor, C++'s `/` and `%` agree with Euclidean division. |
| `CInt.WrapInt32` | BetaVersionOfLittleKingdom/Game.cpp:340-341 | The `static_cast<int>` of an unsigned result is always an `int`. It is the identity on values that fit and is congruent to its input modulo 2^32. |
| `CInt.ToSizeT` | BetaVersionOfLittleKingdom/forAnimation.cpp:45 | Converting `currentFrame + 1` to `size_t` gives a value in [0, 2^64). It is the identity on non-negative values below 2^64 and is congruent to its input modulo 2^64. |
| `Tiles.Resolve` | BetaVersionOfLittleKingdom/Game.cpp:315-320 | The resolved tileset is the last registry entry whose `firstGid` does not exceed the gid. The result is none exactly when no entry starts at or below the gid. |
| `Tiles.ResolveScan` | BetaVersionOfLittleKingdom/Game.cpp:315-320 | The front-to-back scan that overwrites its choice on every match gives the same tileset as `Resolve`. |
| `Tiles.ResolveIsLastMatch` | BetaVersionOfLittleKingdom/forAnimation.cpp:61-66 | `Resolve` answers entry `i` if and only if `i` is the last match, in both directions. |
| `Tiles.ResolveAscendingIsHighest` | BetaVersionOfLittleKingdom/Game.cpp:315-320 | On a registry with ascending `firstGid`s, the last match is also the match with the highest start. |
| `Tiles.ResolveExamples` | BetaVersionOfLittleKingdom/Game.cpp:313-320 | With starts 1, 50 and 100, gid 75 goes to the sheet at 50, gid 150 to the one at 100, gid 1 to the first, and gids 0 and -3 to none. |
| `Tiles.ResolveOutOfOrder` | BetaVersionOfLittleKingdom/Game.cpp:316-319 | Tilesets declared out of order send a gid to the later entry, even when an earlier entry has a higher start. |
| `Tiles.SourceRect` | BetaVersionOfLittleKingdom/Game.cpp:328-338 | The source rectangle is one tile in size. |
| `Tiles.SourceRectInSheet` | BetaVersionOfLittleKingdom/Game.cpp:333-338 | For a non-negative index on a sheet with positive tile sizes, the rectangle lies on the tile grid and inside the image's columns. It gives the index back in row-major order, and it lies inside the image's rows when the index is below `cols * rows`. |
| `Tiles.DestRect` | BetaVersionOfLittleKingdom/Game.cpp:339-344 | The destination position is an `int` after the cast, and the size is the tileset's tile size. |
| `Tiles.DestRectGivesCell` | BetaVersionOfLittleKingdom/Game.cpp:339-344 | When no wrap-around occurs, adding back the camera offset and dividing by 64 recovers the cell's column and row. |
| `Tiles.DestRectFollowsCamera` | BetaVersionOfLittleKingdom/forAnimation.cpp:99-104 | Moving the camera by (dx, dy) moves every destination by (-dx, -dy), provided nothing wraps. |
| `MapLoader.AddTile` | BetaVersionOfLittleKingdom/Game.cpp:247-253 | One tile-loop step appends the gid to the flattened layer. It keeps the shape: all rows before the last are full, and the last row is non-empty and not over-full. |
| `MapLoader.ChunkRows` | BetaVersionOfLittleKingdom/Game.cpp:244-254 | The rows built from a data element's gids concatenate back to exactly those gids, in rows of `abs(mapWidth)`. |
| `MapLoader.LastRowFull` | BetaVersionOfLittleKingdom/Game.cpp:247 | The running count is divisible by the width (signed `%`) exactly when the last row is full. |
| `MapLoader.ChunkRowsRowMajor` | BetaVersionOfLittleKingdom/Game.cpp:246-254 | The cell in row `i`, column `j` is gid number `i * abs(mapWidth) + j` of the data element. |
| `MapLoader.ChunkRowsFull` | BetaVersionOfLittleKingdom/Game.cpp:256-258 | A layer that passes the count check has `abs(mapHeight)` rows of `abs(mapWidth)` gids. |
| `MapLoader.LoadTilesets` | BetaVersionOfLittleKingdom/Game.cpp:225-235 | Tilesets are appended in declaration order after the existing entries. The loop stops at the first declaration whose file fails, having appended all those before it. |
| `MapLoader.LoadLayers` | BetaVersionOfLittleKingdom/Game.cpp:238-261 | No error is reported if and only if every layer has data with exactly `width * height` gids. Otherwise the error names the first rejected layer and its cause, and every accepted layer is its gids chunked into rows. |
| `MapLoader.LoadTmxLoaded` | BetaVersionOfLittleKingdom/Game.cpp:209-264 | This lemma states the contract of `MapLoader.LoadTmx`: `loadTMX` succeeds if and only if every tileset loads and every layer is accepted. On success the registry is the old one followed by the declared tilesets in order, and each layer has the map's shape and flattens back to its data. |
| `MapLoader.LoadTmxFailed` | BetaVersionOfLittleKingdom/Game.cpp:225-261 | The failure half of `MapLoader.LoadTmx`'s contract: on failure the tilesets and layers appended before the failure point stay behind (there is no rollback), and the error says where the load stopped. |
| `TileAnimation.UpdateTile` | BetaVersionOfLittleKingdom/forAnimation.cpp:42-46 | Below the duration, only the clock grows. On reaching it, exactly one duration is given back and the frame becomes `(currentFrame + 1) % n` for frames from -1 up. A valid frame index stays valid. Advancing needs a non-empty frame list and a frame below the largest `int`. |
| `TileAnimation.NextFrameUnsigned` | BetaVersionOfLittleKingdom/forAnimation.cpp:45 | Because the operand is converted to `size_t`, a tile at frame -2 with 7 frames moves to frame 1, where a signed remainder would give -1. |
| `TileAnimation.NoCatchUp` | BetaVersionOfLittleKingdom/forAnimation.cpp:43-45 | A 0.35 s step with a 0.1 s duration advances one frame and keeps 0.25 s. |
| `TileAnimation.LagUnderLongSteps` | BetaVersionOfLittleKingdom/forAnimation.cpp:42-44 | Under steps at least as long as the duration, the clock never decreases. |
| `TileAnimation.UpdateAnimations` | BetaVersionOfLittleKingdom/forAnimation.cpp:40-48 | Every tile keeps its id, frames and duration, and valid frames stay valid. A tile below its duration keeps its frame and its clock grows by the elapsed time. A tile that reaches it gives back one duration and moves to `(currentFrame + 1) % n` when its frame is -1 or above. |
| `TileAnimation.FirstAnimated` | BetaVersionOfLittleKingdom/forAnimation.cpp:78-86 | The lookup finds the lowest-index tile with `tileId == gid`, and finds none exactly when no tile has that id. |
| `TileAnimation.FindAnimated` | BetaVersionOfLittleKingdom/forAnimation.cpp:80-86 | The loop with its early `break` returns the first match. |
| `TileAnimation.FirstAnimatedUnique` | BetaVersionOfLittleKingdom/forAnimation.cpp:80-86 | Any answer with the first-match properties is the lookup's answer. |
| `TileAnimation.UpdateKeepsLookup` | BetaVersionOfLittleKingdom/forAnimation.cpp:40-48 | `updateAnimations` does not change which animated tile a gid finds. |
| `Renderer.CellDraw` | BetaVersionOfLittleKingdom/Game.cpp:311-346 | A cell is drawn exactly when its gid is positive, resolves, and the tileset has a texture. The draw uses the last-matching tileset. |
| `Renderer.RowPlanSpec` | BetaVersionOfLittleKingdom/Game.cpp:310-348 | The contract of `Renderer.RowPlan`: a row's draws are exactly its drawable cells' draws, each tagged with its cell, in increasing column order. |
| `Renderer.LayerPlanSpec` | BetaVersionOfLittleKingdom/Game.cpp:307-350 | The contract of `Renderer.LayerPlan`: a layer's draws are exactly its drawable cells' draws, row by row and then column by column. |
| `Renderer.MapPlanSpec` | BetaVersionOfLittleKingdom/Game.cpp:303-352 | The contract of `Renderer.MapPlan`: the frame's draws are exactly the drawable cells' draws, in layer, then row, then column order. No other draw is issued. |
| `Renderer.ConcatSorted` | BetaVersionOfLittleKingdom/Game.cpp:303-310 | Runs in painter's order, each wholly before the next, join into one run in painter's order. |
| `Renderer.RenderMap` | BetaVersionOfLittleKingdom/Game.cpp:302-353 | Game.cpp's renderer draws nothing exactly when no cell is drawable. |
| `Renderer.RenderMapAnimated` | BetaVersionOfLittleKingdom/forAnimation.cpp:50-131 | forAnimation.cpp's renderer draws nothing exactly when no cell is drawable. |
| `Renderer.RenderEmptyIff` | BetaVersionOfLittleKingdom/Game.cpp:313-322 | In both variants, the draw list is empty if and only if no cell has a positive, resolving, textured gid. |
| `Renderer.EmptyCellsDrawNothing` | BetaVersionOfLittleKingdom/Game.cpp:313 | A map whose gids are all at most 0 draws nothing, whatever the tilesets and the camera. |
| `Renderer.AnimatedCellDraw` | BetaVersionOfLittleKingdom/forAnimation.cpp:88-125 | Per cell, the animated renderer draws when the static one does, from the same tileset to the same rectangle. For a gid with an animated tile, the source is the current frame's gid, cut relative to the `firstGid` of the cell's own tileset. Otherwise the draw is identical. |
| `Renderer.StaticSourceInSheet` | BetaVersionOfLittleKingdom/Game.cpp:333-338 | A drawable gid's index within its tileset is non-negative. On a positive sheet its source rectangle lies inside the image horizontally and gives that index back. |
| `Renderer.UnanimatedRendersStatic` | BetaVersionOfLittleKingdom/forAnimation.cpp:108-125 | When no animated tile names a gid of the map, forAnimation.cpp's renderer issues exactly Game.cpp's draws. |
| `Renderer.AnimatedRendersSameCells` | BetaVersionOfLittleKingdom/forAnimation.cpp:50-131 | The two renderers issue the same number of draws, the k-th of each from the same tileset to the same screen rectangle. |
| `Renderer.RowLoop` | BetaVersionOfLittleKingdom/Game.cpp:310-350 | The column loop issues exactly the row's planned draws. |
| `Renderer.LayerLoop` | BetaVersionOfLittleKingdom/Game.cpp:307-351 | The row loop issues exactly the layer's planned draws. |
| `Renderer.RenderLoops` | BetaVersionOfLittleKingdom/Game.cpp:302-353 | The three nested loops issue exactly the draws of the recursive plan, in order. |
| `Player.UpdatePlayerAnimationFrame` | BetaVersionOfLittleKingdom/player.h:52-65 | Below 0.1 s only the clock grows. On reaching it, one 0.1 s is given back and the frame becomes `(frame + 1) % 6`, so the initial -1 becomes 0. Frames in -1..5 stay in -1..5. |
| `Player.UpdateIgnoresState` | BetaVersionOfLittleKingdom/player.h:58-63 | Idle and running update the clock identically, since both rows have six frames. |
| `Player.SignedRemainderBelowMinusOne` | BetaVersionOfLittleKingdom/player.h:59 | C++'s signed `%` takes frame -3 to -2, not 4. |
| `Player.OneFramePerCall` | BetaVersionOfLittleKingdom/player.h:55-56 | A 0.35 s step moves one frame and keeps 0.25 s. |
| `Player.RenderPlayerAnimation` | BetaVersionOfLittleKingdom/player.h:34-49 | The source is one 192x192 cell. The destination is the 192x192 box at (x, y). The flip is horizontal if and only if the flag is set. |
| `Player.PlayerSourceGivesCell` | BetaVersionOfLittleKingdom/player.h:35-39 | The source rectangle lies on the 192-pixel grid and gives back the frame and row it was cut for. A frame in 0..5 lies within the sheet's six columns. |
| `Controls.InitialCamera` | BetaVersionOfLittleKingdom/Game.cpp:77-79 | On a map at least as large as the screen, the start position is inside the map and centred to within one pixel on each axis. |
| `Controls.HandleEvent` | BetaVersionOfLittleKingdom/Game.cpp:90-128 | A key-down of W/A/S/D moves the camera by -12/-12/+12/+12 on its axis unless there is a collision, and switches to running; A sets the flip and D clears it. A key-up of any of the four goes idle at frame 0, and quit sets the flag. Nothing else changes. |
| `Controls.HandleEventsMovesCamera` | BetaVersionOfLittleKingdom/Game.cpp:95-122 | The contract of `Controls.HandleEvents`: over a batch of events without collision, the camera moves 12 px per D minus A and per S minus W. With a collision it does not move. Quit is set exactly when a quit event came or it was already set. |
| `Controls.ClampAxis` | BetaVersionOfLittleKingdom/Game.cpp:140-141 | The clamped coordinate is at least 0 and at most the map size minus the viewport, or 0 when the map is smaller. In-range values are unchanged and out-of-range ones go to the nearer bound. |
| `Controls.ClampCamera` | BetaVersionOfLittleKingdom/Game.cpp:140-141 | The clamped camera is on the map, keeps its size, and is unchanged if it already was on the map. |
| `Controls.ClampIdempotent` | BetaVersionOfLittleKingdom/Game.cpp:140-141 | Clamping twice is clamping once. |
| `Controls.SmallMapPinsCamera` | BetaVersionOfLittleKingdom/Game.cpp:140-141 | On a map smaller than the viewport, the camera goes to the origin. |
| `Controls.InitialCameraClamped` | BetaVersionOfLittleKingdom/Game.cpp:77-79 | The centred start position survives the clamp on a large map. A 10x10 map starts at (-80, 20) and is clamped to (0, 20). |
| `Controls.StateRow` | BetaVersionOfLittleKingdom/Game.cpp:158 | The sheet row is 0 exactly when idle. |
| `Controls.DrawPlayer` | BetaVersionOfLittleKingdom/Game.cpp:158 | The player is drawn from row 0 exactly when idle and is mirrored exactly when `flipRunning` is set. Its box starts 64 px before the window centre. |
| `Controls.Frame` | BetaVersionOfLittleKingdom/Game.cpp:88-141 | One pass of the main loop keeps the player's frame in -1..5, leaves the camera on the map, and sets quit exactly on a quit event. |
| `Controls.GameKeepsInvariant` | BetaVersionOfLittleKingdom/Game.cpp:38-141 | The contract of `Controls.Frames`: from a state whose frame is in -1..5, any number of frames keep it there. After at least one frame, the camera is on the map. |
| `Controls.InitialStateConsistent` | BetaVersionOfLittleKingdom/Game.cpp:36-40 | The game starts idle at frame -1, which satisfies the invariant. |
| `Game.LoadedMapDrawsOnMap` | BetaVersionOfLittleKingdom/Game.cpp:71-157 | Every draw of a successfully loaded map lies on a loaded layer, in a row below `abs(mapHeight)` and a column below `abs(mapWidth)`. A loaded map whose gids are all 0 draws nothing. |

## Left out

- SDL and SDL_image: windows, renderers, textures and the draw calls' effects. A texture is modelled only as present or absent (`hasTexture`), and a draw is the record of its arguments.
- XML parsing with tinyxml2. The model starts from an already parsed `map` element. `firstgid`, `gid`, `tilewidth` and `tileheight` are read with `IntAttribute`, which gives 0 for a missing attribute. The map's `width` and `height` and the image's `width` and `height` are read with `QueryIntAttribute`, which leaves the variable unchanged when the attribute is missing. For the map size that is `main`'s initial 0. For the image size it is an uninitialised `Tileset` field, so a missing image dimension is undefined behaviour. The model takes every dimension as an arbitrary integer. A missing `map` element or an unreadable file is outside the model.
- `loadTSX` internals. A tileset file either fails or yields a sheet with a loaded texture. Declarations without a `source` attribute, sheets without an `image` element, and `image` elements without a `source` attribute leave the `Tileset` fields uninitialised in the source (undefined behaviour), so they are not modelled.
- The main loop's timing (`SDL_GetTicks`) and event polling. Elapsed time and event batches are parameters.
- Floating point. `float` times and the 0.1f frame duration are exact reals, so rounding at the `>=` comparison is not modelled. The unused `scale` argument and fullscreen scale computation are left out.
- The unused locals `rows` in both forAnimation.cpp and Game.cpp, and `GID` in Game.cpp, the `log` helper, `init`, `destroy` and `loadPlayerSpriteSheet`.
- The `collision` flag is never set in the source. It is a parameter.
- Nothing in forAnimation.cpp fills its `tilesets` or `animatedTiles`. As written, both stay empty and the animated override never fires. The model takes both as parameters.
- `TileAnimation.UpdateTile`: `size_t` is taken to be 64 bits wide, and the `size_t` result assigned back to `int` is not wrapped. The result is below the frame count, so it fits whenever the frame count fits in an `int`.
- `Controls.InitialCamera`: signed overflow of `mapWidth * TILE_SIZE` and `mapHeight * TILE_SIZE` is not modelled.
- `Controls.HandleEvent`: signed overflow of the camera coordinates is not modelled.
- `Controls.ClampCamera`: signed overflow of `mapWidth * TILE_SIZE` is not modelled.
- `MapLoader.LoadLayers`: signed overflow of `mapWidth * mapHeight` and of the tile counter is not modelled.
- `Tiles.SourceRect`: signed overflow of `(index % cols) * tileWidth` and of `tileIndex` is not modelled. Only the destination's `size_t`-to-`int` cast wraps.

=== FILE: animation.dfy ===
/** The animated tiles of forAnimation.cpp: each names the gid it replaces,
    the gids of its frames, and its own frame clock, which `updateAnimations`
    advances by at most one frame per call. */
module TileAnimation {
  import opened Wrappers
  import CInt

  /** `AnimatedTile`. Times are exact reals; the source uses `float`. */
  datatype AnimatedTile = AnimatedTile(
    tileId: int,
    frames: seq<int>,
    frameDuration: real,
    elapsedTime: real,
    currentFrame: int)

  /** The clock reaches the frame duration on this call. */
  predicate Advances(t: AnimatedTile, deltaTime: real) {
    t.elapsedTime + deltaTime >= t.frameDuration
  }

  /** On an advancing step the source divides by `frames.size()` and
      computes `currentFrame + 1` in `int`: the frame list is non-empty and the
      increment does not overflow. */
  predicate StepDefined(t: AnimatedTile, deltaTime: real) {
    Advances(t, deltaTime) ==> |t.frames| > 0 && t.currentFrame < CInt.INT32_MAX
  }

  /** The current frame indexes the frame list. */
  predicate FrameValid(t: AnimatedTile) {
    0 <= t.currentFrame < |t.frames|
  }

  /** The frame after the current one: `(currentFrame + 1) % frames.size()`,
      where the `int` operand is converted to the unsigned `size_t`. */
  function NextFrame(t: AnimatedTile): int
    requires |t.frames| > 0
  {
    CInt.ToSizeT(t.currentFrame + 1) % |t.frames|
  }

  /** One iteration of `updateAnimations` on one tile: add the elapsed time,
      and if it reaches the frame duration, subtract one duration and advance
      one frame. */
  function UpdateTile(t: AnimatedTile, deltaTime: real): (r: AnimatedTile)
    requires StepDefined(t, deltaTime)
    ensures r.tileId == t.tileId && r.frames == t.frames && r.frameDuration == t.frameDuration
    ensures !Advances(t, deltaTime) ==> r.currentFrame == t.currentFrame && r.elapsedTime == t.elapsedTime + deltaTime
    ensures Advances(t, deltaTime) ==> r.elapsedTime + t.frameDuration == t.elapsedTime + deltaTime
    ensures FrameValid(t) ==> FrameValid(r)
    ensures Advances(t, deltaTime) && -1 <= t.currentFrame ==>
      r.currentFrame == (t.currentFrame + 1) % |t.frames|
  {
    var elapsed := t.elapsedTime + deltaTime;
    if elapsed >= t.frameDuration then
      t.(elapsedTime := elapsed - t.frameDuration, currentFrame := NextFrame(t))
    else
      t.(elapsedTime := elapsed)
  }

  /** A frame of -2 or below is not taken modulo the frame count as a signed
      number: -1 converts to 2^64 - 1 before the remainder, so a tile at frame
      -2 with 7 frames advances to frame 1, where a signed remainder would give -1. */
  lemma NextFrameUnsigned()
    ensures NextFrame(AnimatedTile(0, [1, 2, 3, 4, 5, 6, 7], 1.0, 0.0, -2)) == 1
    ensures CInt.Mod(-2 + 1, 7) == -1
  {
  }

  /** There is no catch-up: with a duration of 0.1 and a step of 0.35 the tile
      moves one frame, not three, and keeps 0.25 on its clock. */
  lemma NoCatchUp()
    ensures var t := UpdateTile(AnimatedTile(7, [1, 2, 3, 4, 5, 6], 0.1, 0.0, 0), 0.35);
      t.currentFrame == 1 && t.elapsedTime == 0.25
  {
  }

  /** Under steps at least as long as a (positive) frame duration, the clock
      never gives back time, so the animation falls further behind on every
      such call. */
  lemma LagUnderLongSteps(t: AnimatedTile, deltaTime: real)
    requires StepDefined(t, deltaTime)
    requires 0.0 < t.frameDuration <= deltaTime
    ensures UpdateTile(t, deltaTime).elapsedTime >= t.elapsedTime
  {
  }

  /** `updateAnimations`: every tile steps once with the same elapsed time. */
  function UpdateAnimations(tiles: seq<AnimatedTile>, deltaTime: real): (r: seq<AnimatedTile>)
    requires forall i :: 0 <= i < |tiles| ==> StepDefined(tiles[i], deltaTime)
    ensures |r| == |tiles|
    ensures forall i :: 0 <= i < |r| ==>
      && r[i].tileId == tiles[i].tileId
      && r[i].frames == tiles[i].frames
      && r[i].frameDuration == tiles[i].frameDuration
    ensures forall i :: 0 <= i < |r| && FrameValid(tiles[i]) ==> FrameValid(r[i])
    ensures forall i :: 0 <= i < |r| && !Advances(tiles[i], deltaTime) ==>
      r[i].currentFrame == tiles[i].currentFrame && r[i].elapsedTime == tiles[i].elapsedTime + deltaTime
    ensures forall i :: 0 <= i < |r| && Advances(tiles[i], deltaTime) ==>
      r[i].elapsedTime + tiles[i].frameDuration == tiles[i].elapsedTime + deltaTime
    ensures forall i :: 0 <= i < |r| && Advances(tiles[i], deltaTime) && -1 <= tiles[i].currentFrame ==>
      StepDefined(tiles[i], deltaTime) && r[i].currentFrame == (tiles[i].currentFrame + 1) % |tiles[i].frames|
  {
    seq(|tiles|, i requires 0 <= i < |tiles| => UpdateTile(tiles[i], deltaTime))
  }

  /** The tile with `tileId == gid` of lowest index at or after `from`. */
  function FirstAnimatedFrom(tiles: seq<AnimatedTile>, gid: int, from: nat): (r: Option<nat>)
    requires from <= |tiles|
    ensures r.Some? ==>
      && from <= r.value < |tiles| && tiles[r.value].tileId == gid
      && forall k :: from <= k < r.value ==> tiles[k].tileId != gid
    ensures r.None? ==> forall k :: from <= k < |tiles| ==> tiles[k].tileId != gid
    decreases |tiles| - from
  {
    if from == |tiles| then None
    else if tiles[from].tileId == gid then Some(from)
    else FirstAnimatedFrom(tiles, gid, from + 1)
  }

  /** The renderer's lookup: the first animated tile whose `tileId` is the gid. */
  function FirstAnimated(tiles: seq<AnimatedTile>, gid: int): (r: Option<nat>)
    ensures r.Some? ==>
      && r.value < |tiles| && tiles[r.value].tileId == gid
      && forall k :: 0 <= k < r.value ==> tiles[k].tileId != gid
    ensures r.None? <==> forall k :: 0 <= k < |tiles| ==> tiles[k].tileId != gid
  {
    FirstAnimatedFrom(tiles, gid, 0)
  }

  /** The lookup loop with its early `break`. */
  method FindAnimated(tiles: seq<AnimatedTile>, gid: int) returns (found: Option<nat>)
    ensures found == FirstAnimated(tiles, gid)
  {
    found := None;
    var i := 0;
    while i < |tiles|
      invariant 0 <= i <= |tiles|
      invariant forall k :: 0 <= k < i ==> tiles[k].tileId != gid
    {
      if tiles[i].tileId == gid {
        found := Some(i);
        break;
      }
      i := i + 1;
    }
    FirstAnimatedUnique(tiles, gid, found);
  }

  /** The first match is determined by its two properties. */
  lemma FirstAnimatedUnique(tiles: seq<AnimatedTile>, gid: int, r: Option<nat>)
    requires r.Some? ==>
      && r.value < |tiles| && tiles[r.value].tileId == gid
      && forall k :: 0 <= k < r.value ==> tiles[k].tileId != gid
    requires r.None? ==> forall k :: 0 <= k < |tiles| ==> tiles[k].tileId != gid
    ensures r == FirstAnimated(tiles, gid)
  {
  }

  /** The clock update changes no tile id, so the lookup finds the same tile
      before and after `updateAnimations`. */
  lemma UpdateKeepsLookup(tiles: seq<AnimatedTile>, deltaTime: real, gid: int)
    requires forall i :: 0 <= i < |tiles| ==> StepDefined(tiles[i], deltaTime)
    ensures FirstAnimated(UpdateAnimations(tiles, deltaTime), gid) == FirstAnimated(tiles, gid)
  {
    var u := UpdateAnimations(tiles, deltaTime);
    FirstAnimatedUnique(u, gid, FirstAnimated(tiles, gid));
  }
}

=== FILE: cint.dfy ===
/** The parts of C++ integer semantics the game relies on: `/` and `%` on `int`
    truncate toward zero, a `size_t` is a 64-bit unsigned integer, and a
    `static_cast<int>` of an unsigned value keeps its low 32 bits. Dafny's own
    `/` and `%` are Euclidean and its integers are unbounded, so each of these
    is written out here. */
module CInt {

  const INT32_MIN: int := -0x8000_0000
  const INT32_MAX: int := 0x7fff_ffff
  const TWO_POW_32: int := 0x1_0000_0000
  const TWO_POW_64: int := 0x1_0000_0000_0000_0000

  predicate IsInt32(v: int) {
    INT32_MIN <= v <= INT32_MAX
  }

  function Abs(v: int): nat {
    if v < 0 then -v else v
  }

  /** C++ `a / b` on `int`: the quotient rounded toward zero. */
  function Div(a: int, b: int): int
    requires b != 0
  {
    var q := Abs(a) / Abs(b);
    if (a < 0) == (b < 0) then q else -q
  }

  /** C++ `a % b` on `int`: the remainder carries the sign of the dividend. */
  function Mod(a: int, b: int): int
    requires b != 0
  {
    var m := Abs(a) % Abs(b);
    if a < 0 then -m else m
  }

  /** The identity the C++ standard demands of `/` and `%` (section 7.6.5 of
      ISO C++20), together with the sign and size of the remainder. */
  lemma DivModIdentity(a: int, b: int)
    requires b != 0
    ensures Div(a, b) * b + Mod(a, b) == a
    ensures Abs(Mod(a, b)) < Abs(b)
    ensures a >= 0 ==> Mod(a, b) >= 0
    ensures a <= 0 ==> Mod(a, b) <= 0
  {
    var q := Abs(a) / Abs(b);
    var m := Abs(a) % Abs(b);
    assert Abs(a) == q * Abs(b) + m;
    if b < 0 {
      assert q * b == -(q * Abs(b));
    }
  }

  /** For a non-negative dividend and a positive divisor the C++ operators
      agree with Dafny's. */
  lemma DivModNonNegative(a: int, b: int)
    requires a >= 0 && b > 0
    ensures Div(a, b) == a / b && Mod(a, b) == a % b
    ensures 0 <= Mod(a, b) < b
  {
  }

  /** `static_cast<int>` of a value computed in unsigned arithmetic: the value
      modulo 2^32, read as two's complement. */
  function WrapInt32(v: int): (r: int)
    ensures IsInt32(r)
    ensures IsInt32(v) ==> r == v
    ensures (v - r) % TWO_POW_32 == 0
  {
    (v - INT32_MIN) % TWO_POW_32 + INT32_MIN
  }

  /** Conversion of an `int` to a 64-bit `size_t`: the value modulo 2^64. */
  function ToSizeT(v: int): (r: int)
    ensures 0 <= r < TWO_POW_64
    ensures 0 <= v < TWO_POW_64 ==> r == v
    ensures (v - r) % TWO_POW_64 == 0
  {
    v % TWO_POW_64
  }

  /** The quotient and remainder by a positive divisor are the unique pair that
      rebuilds the dividend with a remainder in range. */
  lemma DivModUnique(n: int, d: int, q: int, r: int)
    requires d > 0 && 0 <= r < d && n == q * d + r
    ensures n / d == q && n % d == r
  {
    var q' := n / d;
    var r' := n % d;
    assert (q - q') * d == r' - r;
    if q > q' {
      MulAtLeast(q - q', d);
    } else if q < q' {
      MulAtLeast(q' - q, d);
    }
  }

  lemma MulAtLeast(k: int, d: int)
    requires k >= 1 && d > 0
    ensures k * d >= d
  {
    assert k * d == (k - 1) * d + d;
  }

  /** Column and row of a non-negative index on a grid `cols` wide. */
  lemma GridPosition(idx: int, cols: int)
    requires idx >= 0 && cols >= 1
    ensures 0 <= idx % cols < cols && idx / cols >= 0
    ensures idx == (idx / cols) * cols + idx % cols
  {
  }

  /** Multiplying by a positive `d` and dividing again is the identity. */
  lemma MultipleOf(k: int, d: int)
    requires d > 0
    ensures (k * d) / d == k && (k * d) % d == 0
  {
    DivModUnique(k * d, d, k, 0);
  }

  /** Multiplying by a non-negative factor keeps the order. */
  lemma MulMonotone(a: int, b: int, c: int)
    requires a <= b && c >= 0
    ensures a * c <= b * c
  {
    assert b * c - a * c == (b - a) * c;
  }

  /** A non-negative times a non-positive number is non-positive. */
  lemma MulNonPositive(a: int, b: int)
    requires a >= 0 && b <= 0
    ensures a * b <= 0
  {
    assert a * b == -(a * -b);
  }
}

=== FILE: controls.dfy ===
/** The parts of Game.cpp's `main` that the core consists of: the initial
    centring of the camera, the keyboard handling that moves it and switches
    the player's animation, the per-frame clamp that keeps it on the map, and
    the call that draws the player in the middle of the window. */
module Controls {
  import opened Tiles
  import Player
  import CInt

  const SCREEN_WIDTH: int := 800
  const SCREEN_HEIGHT: int := 600
  /** Pixels the camera moves per key-down event. */
  const CAMERA_STEP: int := 12

  datatype Key = KeyW | KeyA | KeyS | KeyD | OtherKey

  datatype Event = QuitEvent | KeyDown(key: Key) | KeyUp(key: Key) | OtherEvent

  /** One of the four movement keys. */
  predicate Movement(k: Key) {
    k != OtherKey
  }

  /** What the event loop reads and writes: the camera, the animation state,
      the running sprite's mirroring, the player's frame clock and the quit
      flag. */
  datatype ControlState = ControlState(
    camera: Camera,
    state: Player.AnimationState,
    flipRunning: bool,
    clock: Player.Clock,
    quit: bool)

  /** The camera at start-up: the viewport is the screen, centred on the map
      with C++'s truncating division. */
  function InitialCamera(mapWidth: int, mapHeight: int): (cam: Camera)
    ensures cam.width == SCREEN_WIDTH && cam.height == SCREEN_HEIGHT
    ensures mapWidth * TILE_SIZE >= SCREEN_WIDTH ==>
      var right := mapWidth * TILE_SIZE - (cam.x + cam.width);
      0 <= cam.x && 0 <= right - cam.x <= 1
    ensures mapHeight * TILE_SIZE >= SCREEN_HEIGHT ==>
      var bottom := mapHeight * TILE_SIZE - (cam.y + cam.height);
      0 <= cam.y && 0 <= bottom - cam.y <= 1
  {
    CInt.DivModIdentity(mapWidth * TILE_SIZE - SCREEN_WIDTH, 2);
    CInt.DivModIdentity(mapHeight * TILE_SIZE - SCREEN_HEIGHT, 2);
    Camera(
      CInt.Div(mapWidth * TILE_SIZE - SCREEN_WIDTH, 2),
      CInt.Div(mapHeight * TILE_SIZE - SCREEN_HEIGHT, 2),
      SCREEN_WIDTH, SCREEN_HEIGHT)
  }

  /** One event of the `SDL_PollEvent` loop. A key-down of w/a/s/d moves the
      camera by 12 pixels unless there is a collision, and switches to the
      running animation (a mirrors it, d un-mirrors it); a key-up of any of
      the four returns to idle at frame 0; quit sets the flag. */
  function HandleEvent(s: ControlState, e: Event, collision: bool): (r: ControlState)
    ensures r.camera.width == s.camera.width && r.camera.height == s.camera.height
    ensures r.clock.timeSinceLastFrame == s.clock.timeSinceLastFrame
    ensures r.quit <==> s.quit || e == QuitEvent
    ensures (e.KeyDown? && Movement(e.key)) ==>
      && r.state == Player.Running && r.clock == s.clock
      && (collision ==> r.camera == s.camera)
      && (!collision ==> r.camera.x - s.camera.x == Dx(e.key) && r.camera.y - s.camera.y == Dy(e.key))
      && r.flipRunning == (if e.key == KeyA then true else if e.key == KeyD then false else s.flipRunning)
    ensures (e.KeyUp? && Movement(e.key)) ==>
      r.state == Player.Idle && r.clock.currentFrame == 0 && r.camera == s.camera && r.flipRunning == s.flipRunning
    ensures !(e.KeyDown? && Movement(e.key)) && !(e.KeyUp? && Movement(e.key)) ==> r.(quit := s.quit) == s
  {
    match e
    case QuitEvent => s.(quit := true)
    case OtherEvent => s
    case KeyDown(k) =>
      var cam := s.camera;
      var moved := if collision then cam else cam.(x := cam.x + Dx(k), y := cam.y + Dy(k));
      if k == KeyW || k == KeyS then s.(camera := moved, state := Player.Running)
      else if k == KeyA then s.(camera := moved, state := Player.Running, flipRunning := true)
      else if k == KeyD then s.(camera := moved, state := Player.Running, flipRunning := false)
      else s
    case KeyUp(k) =>
      if Movement(k) then s.(state := Player.Idle, clock := s.clock.(currentFrame := 0))
      else s
  }

  /** The horizontal camera step of a key. */
  function Dx(k: Key): int {
    match k
    case KeyA => -CAMERA_STEP
    case KeyD => CAMERA_STEP
    case _ => 0
  }

  /** The vertical camera step of a key. */
  function Dy(k: Key): int {
    match k
    case KeyW => -CAMERA_STEP
    case KeyS => CAMERA_STEP
    case _ => 0
  }

  /** All events polled in one frame, in order. */
  function HandleEvents(s: ControlState, es: seq<Event>, collision: bool): ControlState
    decreases |es|
  {
    if |es| == 0 then s
    else HandleEvents(HandleEvent(s, es[0], collision), es[1..], collision)
  }

  /** The key-down events of key `k`. */
  function KeyDowns(es: seq<Event>, k: Key): nat
    decreases |es|
  {
    if |es| == 0 then 0
    else (if es[0] == KeyDown(k) then 1 else 0) + KeyDowns(es[1..], k)
  }

  /** Over a batch of events the camera moves 12 pixels per d minus a, and 12
      per s minus w, as long as there is no collision; with a collision it
      does not move. The quit flag ends up set exactly when it was set or a
      quit event came. */
  lemma {:induction false} HandleEventsMovesCamera(s: ControlState, es: seq<Event>, collision: bool)
    ensures var r := HandleEvents(s, es, collision);
      && r.camera.width == s.camera.width && r.camera.height == s.camera.height
      && (collision ==> r.camera == s.camera)
      && (!collision ==>
            && r.camera.x == s.camera.x + CAMERA_STEP * (KeyDowns(es, KeyD) - KeyDowns(es, KeyA))
            && r.camera.y == s.camera.y + CAMERA_STEP * (KeyDowns(es, KeyS) - KeyDowns(es, KeyW)))
      && (r.quit <==> s.quit || QuitEvent in es)
    decreases |es|
  {
    if |es| > 0 {
      HandleEventsMovesCamera(HandleEvent(s, es[0], collision), es[1..], collision);
      assert es == [es[0]] + es[1..];
    }
  }

  /** `std::max(0, std::min(v, mapPixels - view))`. */
  function ClampAxis(v: int, mapPixels: int, view: int): (r: int)
    ensures 0 <= r
    ensures r <= mapPixels - view || r == 0
    ensures 0 <= v <= mapPixels - view ==> r == v
    ensures mapPixels - view <= 0 ==> r == 0
    ensures v <= 0 ==> r == 0
    ensures v >= mapPixels - view >= 0 ==> r == mapPixels - view
  {
    var hi := mapPixels - view;
    var lower := if v < hi then v else hi;
    if 0 < lower then lower else 0
  }

  /** The largest camera coordinate the clamp allows on an axis. */
  function MaxScroll(mapPixels: int, view: int): (m: int)
    ensures m >= 0 && m >= mapPixels - view
  {
    if mapPixels - view > 0 then mapPixels - view else 0
  }

  /** Inside the map: the camera position lies in `[0, MaxScroll]` on both axes. */
  predicate CameraInBounds(cam: Camera, mapWidth: int, mapHeight: int) {
    && 0 <= cam.x <= MaxScroll(mapWidth * TILE_SIZE, cam.width)
    && 0 <= cam.y <= MaxScroll(mapHeight * TILE_SIZE, cam.height)
  }

  /** The clamp at the end of every frame. */
  function ClampCamera(cam: Camera, mapWidth: int, mapHeight: int): (r: Camera)
    ensures r.width == cam.width && r.height == cam.height
    ensures CameraInBounds(r, mapWidth, mapHeight)
    ensures CameraInBounds(cam, mapWidth, mapHeight) ==> r == cam
  {
    cam.(x := ClampAxis(cam.x, mapWidth * TILE_SIZE, cam.width),
         y := ClampAxis(cam.y, mapHeight * TILE_SIZE, cam.height))
  }

  /** Clamping twice is clamping once. */
  lemma ClampIdempotent(cam: Camera, mapWidth: int, mapHeight: int)
    ensures ClampCamera(ClampCamera(cam, mapWidth, mapHeight), mapWidth, mapHeight) == ClampCamera(cam, mapWidth, mapHeight)
  {
  }

  /** On a map smaller than the screen the camera is pinned to the origin,
      wherever the keys took it; for example a 10x10 map is 640 pixels wide,
      less than 800. */
  lemma SmallMapPinsCamera(cam: Camera, mapWidth: int, mapHeight: int)
    requires mapWidth * TILE_SIZE <= cam.width && mapHeight * TILE_SIZE <= cam.height
    ensures ClampCamera(cam, mapWidth, mapHeight).x == 0 && ClampCamera(cam, mapWidth, mapHeight).y == 0
  {
  }

  /** The centred start position is already inside the clamp on a map at
      least as large as the screen. A 10x10 map (640x640 pixels) starts at
      (-80, 20): the clamp pulls x back to 0 and keeps y. */
  lemma InitialCameraClamped(mapWidth: int, mapHeight: int)
    requires mapWidth * TILE_SIZE >= SCREEN_WIDTH && mapHeight * TILE_SIZE >= SCREEN_HEIGHT
    ensures ClampCamera(InitialCamera(mapWidth, mapHeight), mapWidth, mapHeight) == InitialCamera(mapWidth, mapHeight)
    ensures InitialCamera(10, 10).x == -80 && InitialCamera(10, 10).y == 20
    ensures ClampCamera(InitialCamera(10, 10), 10, 10) == Camera(0, 20, SCREEN_WIDTH, SCREEN_HEIGHT)
  {
  }

  /** The sheet row of a state at the call site: 0 when idle, 1 otherwise. */
  function StateRow(state: Player.AnimationState): (row: int)
    ensures row == 0 <==> state == Player.Idle
    ensures 0 <= row <= 1
  {
    if state == Player.Idle then 0 else 1
  }

  /** The player draw of each frame: the current frame, the state's row, at
      half the window size less one map tile, mirrored while `flipRunning`. */
  function DrawPlayer(s: ControlState, windowWidth: int, windowHeight: int): (r: Player.PlayerDraw)
    requires Player.FrameInRange(s.clock.currentFrame)
    ensures r.src.y == 0 <==> s.state == Player.Idle
    ensures r.flip == Player.FlipHorizontal <==> s.flipRunning
    ensures windowWidth >= 0 && windowHeight >= 0 ==>
      r.dst.x + TILE_SIZE <= windowWidth - r.dst.x - TILE_SIZE <= r.dst.x + TILE_SIZE + 1
      && r.dst.y + TILE_SIZE <= windowHeight - r.dst.y - TILE_SIZE <= r.dst.y + TILE_SIZE + 1
  {
    CInt.DivModNonNegative(if windowWidth >= 0 then windowWidth else 0, 2);
    CInt.DivModNonNegative(if windowHeight >= 0 then windowHeight else 0, 2);
    Player.RenderPlayerAnimation(
      s.clock.currentFrame, StateRow(s.state),
      CInt.Div(windowWidth, 2) - TILE_SIZE, CInt.Div(windowHeight, 2) - TILE_SIZE,
      s.flipRunning)
  }

  /** The state the game starts in: frame -1, idle, not mirrored. */
  function InitialState(mapWidth: int, mapHeight: int): ControlState {
    ControlState(InitialCamera(mapWidth, mapHeight), Player.Idle, false, Player.Clock(-1, 0.0), false)
  }

  /** The game's invariant between frames: the player's frame is -1 or one of
      the six sheet columns. */
  predicate Consistent(s: ControlState) {
    Player.FrameInRange(s.clock.currentFrame)
  }

  /** One pass of the main loop, without the drawing: poll the events, advance
      the player's frame clock, clamp the camera. */
  function Frame(s: ControlState, es: seq<Event>, deltaTime: real, collision: bool, mapWidth: int, mapHeight: int): (r: ControlState)
    requires Consistent(s)
    ensures Consistent(r)
    ensures CameraInBounds(r.camera, mapWidth, mapHeight)
    ensures r.quit <==> s.quit || QuitEvent in es
  {
    var polled := HandleEvents(s, es, collision);
    HandleEventsKeepConsistent(s, es, collision);
    HandleEventsMovesCamera(s, es, collision);
    var clock := Player.UpdatePlayerAnimationFrame(polled.state, polled.clock, deltaTime);
    polled.(clock := clock, camera := ClampCamera(polled.camera, mapWidth, mapHeight))
  }

  lemma {:induction false} HandleEventsKeepConsistent(s: ControlState, es: seq<Event>, collision: bool)
    requires Consistent(s)
    ensures Consistent(HandleEvents(s, es, collision))
    decreases |es|
  {
    if |es| > 0 {
      HandleEventsKeepConsistent(HandleEvent(s, es[0], collision), es[1..], collision);
    }
  }

  /** Many frames: one batch of events and one time step each. */
  function Frames(s: ControlState, batches: seq<seq<Event>>, steps: seq<real>, collision: bool, mapWidth: int, mapHeight: int): ControlState
    requires Consistent(s) && |steps| == |batches|
    decreases |batches|
  {
    if |batches| == 0 then s
    else Frames(Frame(s, batches[0], steps[0], collision, mapWidth, mapHeight), batches[1..], steps[1..], collision, mapWidth, mapHeight)
  }

  /** From the start of the game, however many frames run, the player's frame
      stays within -1..5 and, after at least one frame, the camera stays on
      the map. */
  lemma {:induction false} GameKeepsInvariant(s: ControlState, batches: seq<seq<Event>>, steps: seq<real>, collision: bool, mapWidth: int, mapHeight: int)
    requires Consistent(s) && |steps| == |batches|
    ensures Consistent(Frames(s, batches, steps, collision, mapWidth, mapHeight))
    ensures |batches| > 0 ==> CameraInBounds(Frames(s, batches, steps, collision, mapWidth, mapHeight).camera, mapWidth, mapHeight)
    decreases |batches|
  {
    if |batches| > 0 {
      var next := Frame(s, batches[0], steps[0], collision, mapWidth, mapHeight);
      GameKeepsInvariant(next, batches[1..], steps[1..], collision, mapWidth, mapHeight);
    }
  }

  /** The initial state satisfies the invariant. */
  lemma InitialStateConsistent(mapWidth: int, mapHeight: int)
    ensures Consistent(InitialState(mapWidth, mapHeight))
    ensures InitialState(mapWidth, mapHeight).clock.currentFrame == -1
  {
  }
}

=== FILE: game.dfy ===
/** Loading and drawing together: what `main` does with the result of
    `loadTMX` when it hands the layers to `renderMap`. */
module Game {
  import opened Tiles
  import MapLoader
  import Renderer
  import CInt

  /** Every draw of a successfully loaded map lands on a cell of the map: a
      layer that was loaded, a row below `|height|` and a column below
      `|width|`; and a loaded map whose gids are all 0 draws nothing. */
  lemma LoadedMapDrawsOnMap(m: MapLoader.MapElement, reg: Registry, v: Renderer.Variant, cam: Camera)
    requires (forall i :: 0 <= i < |m.tilesets| ==> m.tilesets[i].tsx.TsxSheet?) ==>
      MapLoader.LayersDefined(m.width, m.height, m.layers)
    requires MapLoader.LoadTmx(m, reg).status.Loaded?
    requires Renderer.GridDefined(v, MapLoader.LoadTmx(m, reg).registry, MapLoader.LoadTmx(m, reg).layers)
    ensures var r := MapLoader.LoadTmx(m, reg);
      var p := Renderer.MapPlan(v, r.registry, cam, r.layers, 0);
      forall k :: 0 <= k < |p| ==>
        && p[k].cell.layer < |m.layers|
        && p[k].cell.row < CInt.Abs(m.height)
        && p[k].cell.col < CInt.Abs(m.width)
    ensures (forall l, g :: 0 <= l < |m.layers| && g in m.layers[l].data.value ==> g == 0) ==>
      var r := MapLoader.LoadTmx(m, reg);
      Renderer.Render(v, r.registry, cam, r.layers) == []
  {
    var r := MapLoader.LoadTmx(m, reg);
    MapLoader.LoadTmxLoaded(m, reg);
    Renderer.MapPlanSpec(v, r.registry, cam, r.layers, 0);
    var p := Renderer.MapPlan(v, r.registry, cam, r.layers, 0);
    forall k | 0 <= k < |p|
      ensures p[k].cell.layer < |m.layers| && p[k].cell.row < CInt.Abs(m.height) && p[k].cell.col < CInt.Abs(m.width)
    {
      assert Renderer.PlacedAt(v, r.registry, cam, r.layers, 0, p[k]);
      assert MapLoader.Shaped(r.layers[p[k].cell.layer], m.width, m.height);
    }
    if forall l, g :: 0 <= l < |m.layers| && g in m.layers[l].data.value ==> g == 0 {
      forall l, y, x | 0 <= l < |r.layers| && 0 <= y < |r.layers[l]| && 0 <= x < |r.layers[l][y]|
        ensures r.layers[l][y][x] <= 0
      {
        FlattenHolds(r.layers[l], y, x);
      }
      Renderer.EmptyCellsDrawNothing(v, r.registry, cam, r.layers);
    }
  }

  /** Every gid of a layer appears in its flattening. */
  lemma {:induction false} FlattenHolds(rows: MapLoader.Layer, y: nat, x: nat)
    requires y < |rows| && x < |rows[y]|
    ensures rows[y][x] in MapLoader.Flatten(rows)
    decreases |rows|
  {
    if y < |rows| - 1 {
      FlattenHolds(rows[..|rows| - 1], y, x);
    }
    assert MapLoader.Flatten(rows) == MapLoader.Flatten(rows[..|rows| - 1]) + rows[|rows| - 1];
  }
}

=== FILE: loader.dfy ===
/** `loadTMX` of Game.cpp, over an already-parsed map document: the tileset
    declarations are appended to the registry in order, and every layer's
    flat list of gids is cut into rows of the map's width and checked against
    the declared size. */
module MapLoader {
  import opened Wrappers
  import opened Tiles
  import CInt

  /** One layer: rows of gids, top row first. */
  type Layer = seq<seq<int>>

  /** What `loadTSX` makes of an external tileset file: a failure (file
      missing, no `tileset` element, image not decodable), or the tile and
      image sizes of a sheet whose texture was loaded. */
  datatype TsxFile = TsxUnavailable | TsxSheet(tileWidth: int, tileHeight: int, imageWidth: int, imageHeight: int)

  /** A `tileset` element of the map: its `firstgid` and what its `source` loads to. */
  datatype TilesetDecl = TilesetDecl(firstGid: int, tsx: TsxFile)

  /** A `layer` element: the `gid`s of its `data` element, or none when the
      element is missing. */
  datatype LayerDecl = LayerDecl(data: Option<seq<int>>)

  /** The `map` element: declared size and its children, in document order. */
  datatype MapElement = MapElement(width: int, height: int, tilesets: seq<TilesetDecl>, layers: seq<LayerDecl>)

  /** Why a load returned false. */
  datatype LoadError = TilesetFailed(index: nat) | MissingData(index: nat) | TileCountMismatch(index: nat)

  datatype Status = Loaded | Failed(error: LoadError)

  /** The outcome of a load together with the registry and the layer list it
      leaves behind: the source does not roll back on failure. */
  datatype LoadResult = LoadResult(status: Status, registry: Registry, layers: seq<Layer>)

  /** The rows concatenated in order. */
  function Flatten(rows: seq<seq<int>>): seq<int>
    decreases |rows|
  {
    if |rows| == 0 then [] else Flatten(rows[..|rows| - 1]) + rows[|rows| - 1]
  }

  /** The shape the tile loop gives a layer with `a` columns: the rows
      concatenate back to the gids, there are rows exactly when there are
      gids, every row but the last is full, and the last holds the rest. */
  predicate RowChunks(rows: Layer, gids: seq<int>, a: nat) {
    && Flatten(rows) == gids
    && (|rows| == 0 <==> |gids| == 0)
    && (forall i :: 0 <= i < |rows| - 1 ==> |rows[i]| == a)
    && (|rows| > 0 ==>
          && 0 < |rows[|rows| - 1]| <= a
          && |gids| == (|rows| - 1) * a + |rows[|rows| - 1]|)
  }

  /** The body of the tile loop: with `count` tiles already placed, a new row
      is opened when `count % width == 0`, then the gid is appended to the
      last row. A zero width divides by zero. */
  function AddTile(rows: Layer, count: nat, gid: int, width: int): (r: Layer)
    requires width != 0
    requires RowChunks(rows, Flatten(rows), CInt.Abs(width)) && count == |Flatten(rows)|
    ensures Flatten(r) == Flatten(rows) + [gid]
    ensures RowChunks(r, Flatten(r), CInt.Abs(width))
  {
    if CInt.Mod(count, width) == 0 then
      LastRowFullWhenDivisible(rows, Flatten(rows), width);
      ChunkOpenRow(rows, Flatten(rows), gid, CInt.Abs(width));
      rows + [[gid]]
    else
      LastRowFull(count, width, |rows|, |rows[|rows| - 1]|);
      ChunkExtendRow(rows, Flatten(rows), gid, CInt.Abs(width));
      rows[..|rows| - 1] + [rows[|rows| - 1] + [gid]]
  }

  /** The layer the tile loop builds from the `data` element's gids. */
  function ChunkRows(gids: seq<int>, width: int): (rows: Layer)
    requires width != 0 || |gids| == 0
    ensures RowChunks(rows, gids, CInt.Abs(width))
    decreases |gids|
  {
    if |gids| == 0 then []
    else
      var prefix := gids[..|gids| - 1];
      assert prefix + [gids[|gids| - 1]] == gids;
      AddTile(ChunkRows(prefix, width), |prefix|, gids[|gids| - 1], width)
  }

  lemma FlattenSnoc(rows: seq<seq<int>>, row: seq<int>)
    ensures Flatten(rows + [row]) == Flatten(rows) + row
  {
    assert (rows + [row])[..|rows|] == rows;
  }

  /** The running count is a multiple of the width exactly when the last row is full. */
  lemma LastRowFull(count: int, width: int, nrows: int, lastLen: int)
    requires width != 0 && nrows > 0 && 0 < lastLen <= CInt.Abs(width)
    requires count == (nrows - 1) * CInt.Abs(width) + lastLen
    ensures CInt.Mod(count, width) == 0 <==> lastLen == CInt.Abs(width)
  {
    var a := CInt.Abs(width);
    assert count >= 0;
    assert CInt.Mod(count, width) == count % a;
    if lastLen == a {
      CInt.DivModUnique(count, a, nrows, 0);
    } else {
      CInt.DivModUnique(count, a, nrows - 1, lastLen);
    }
  }

  lemma LastRowFullWhenDivisible(prev: Layer, prefix: seq<int>, width: int)
    requires width != 0 && RowChunks(prev, prefix, CInt.Abs(width))
    requires CInt.Mod(|prefix|, width) == 0
    ensures |prev| > 0 ==> |prev[|prev| - 1]| == CInt.Abs(width)
  {
    if |prev| > 0 {
      LastRowFull(|prefix|, width, |prev|, |prev[|prev| - 1]|);
    }
  }

  /** The loop step that opens a new row keeps the shape. */
  lemma ChunkOpenRow(prev: Layer, prefix: seq<int>, gid: int, a: nat)
    requires a > 0 && RowChunks(prev, prefix, a)
    requires |prev| > 0 ==> |prev[|prev| - 1]| == a
    ensures RowChunks(prev + [[gid]], prefix + [gid], a)
  {
    FlattenSnoc(prev, [gid]);
  }

  /** The loop step that appends to a last row that is not yet full keeps the shape. */
  lemma ChunkExtendRow(prev: Layer, prefix: seq<int>, gid: int, a: nat)
    requires RowChunks(prev, prefix, a)
    requires |prev| > 0 && |prev[|prev| - 1]| < a
    ensures RowChunks(prev[..|prev| - 1] + [prev[|prev| - 1] + [gid]], prefix + [gid], a)
  {
    var last := prev[|prev| - 1];
    var init := prev[..|prev| - 1];
    var rows := init + [last + [gid]];
    assert Flatten(rows) == prefix + [gid] by {
      assert prev == init + [last];
      FlattenSnoc(init, last);
      FlattenSnoc(init, last + [gid]);
    }
    assert forall i :: 0 <= i < |rows| - 1 ==> rows[i] == prev[i];
  }

  /** Row `i`, column `j` of the layer holds gid number `i * a + j`. */
  predicate RowMajor(rows: Layer, gids: seq<int>, a: nat) {
    forall i, j :: 0 <= i < |rows| && 0 <= j < |rows[i]| ==> InRowMajorPlace(rows, gids, a, i, j)
  }

  /** Cell `i`, `j` exists and holds gid number `i * a + j`. */
  predicate InRowMajorPlace(rows: Layer, gids: seq<int>, a: nat, i: int, j: int) {
    && 0 <= i < |rows| && 0 <= j < |rows[i]|
    && 0 <= i * a + j < |gids| && rows[i][j] == gids[i * a + j]
  }

  /** One step of the tile loop keeps the layer in row-major order. */
  lemma AddTileRowMajor(rows: Layer, gid: int, width: int)
    requires width != 0
    requires RowChunks(rows, Flatten(rows), CInt.Abs(width))
    requires RowMajor(rows, Flatten(rows), CInt.Abs(width))
    ensures RowMajor(AddTile(rows, |Flatten(rows)|, gid, width), Flatten(rows) + [gid], CInt.Abs(width))
  {
    var prefix := Flatten(rows);
    if CInt.Mod(|prefix|, width) == 0 {
      var a := CInt.Abs(width);
      LastRowFullWhenDivisible(rows, prefix, width);
      assert |prefix| == |rows| * a by {
        if |rows| > 0 {
          assert (|rows| - 1) * a + a == |rows| * a;
        }
      }
      OpenRowRowMajor(rows, prefix, gid, a);
    } else {
      LastRowFull(|prefix|, width, |rows|, |rows[|rows| - 1]|);
      ExtendRowRowMajor(rows, prefix, gid, CInt.Abs(width));
    }
  }

  lemma RowMajorAt(rows: Layer, gids: seq<int>, a: nat, i: nat, j: nat)
    requires RowMajor(rows, gids, a)
    requires i < |rows| && j < |rows[i]|
    ensures i * a + j < |gids| && rows[i][j] == gids[i * a + j]
  {
    assert InRowMajorPlace(rows, gids, a, i, j);
  }

  lemma OpenRowRowMajor(rows: Layer, prefix: seq<int>, gid: int, a: nat)
    requires RowMajor(rows, prefix, a)
    requires |prefix| == |rows| * a
    ensures RowMajor(rows + [[gid]], prefix + [gid], a)
  {
    var r := rows + [[gid]];
    var gids := prefix + [gid];
    forall i, j | 0 <= i < |r| && 0 <= j < |r[i]|
      ensures InRowMajorPlace(r, gids, a, i, j)
    {
      CInt.MulMonotone(0, i, a);
      if i < |rows| {
        assert r[i] == rows[i];
        RowMajorAt(rows, prefix, a, i, j);
      } else {
        assert i == |rows| && j == 0;
      }
    }
    assert RowMajor(r, gids, a);
  }

  lemma ExtendRowRowMajor(rows: Layer, prefix: seq<int>, gid: int, a: nat)
    requires RowMajor(rows, prefix, a)
    requires |rows| > 0 && |prefix| == (|rows| - 1) * a + |rows[|rows| - 1]|
    ensures RowMajor(rows[..|rows| - 1] + [rows[|rows| - 1] + [gid]], prefix + [gid], a)
  {
    var n := |rows|;
    var last := rows[n - 1];
    var r := rows[..n - 1] + [last + [gid]];
    var gids := prefix + [gid];
    forall i, j | 0 <= i < |r| && 0 <= j < |r[i]|
      ensures InRowMajorPlace(r, gids, a, i, j)
    {
      CInt.MulMonotone(0, i, a);
      if i < n - 1 {
        assert r[i] == rows[i];
        RowMajorAt(rows, prefix, a, i, j);
      } else if j < |last| {
        assert r[i] == last + [gid];
        RowMajorAt(rows, prefix, a, i, j);
      } else {
        assert r[i] == last + [gid] && j == |last|;
        assert i * a + j == |prefix|;
      }
    }
    assert RowMajor(r, gids, a);
  }

  /** The rows are the input in row-major order: the cell in row `i`, column
      `j` is input number `i * |width| + j`. */
  lemma {:induction false} ChunkRowsRowMajor(gids: seq<int>, width: int)
    requires width != 0 || |gids| == 0
    ensures RowMajor(ChunkRows(gids, width), gids, CInt.Abs(width))
    decreases |gids|
  {
    if |gids| > 0 {
      var prefix := gids[..|gids| - 1];
      assert prefix + [gids[|gids| - 1]] == gids;
      ChunkRowsRowMajor(prefix, width);
      AddTileRowMajor(ChunkRows(prefix, width), gids[|gids| - 1], width);
    }
  }

  /** `w * h`, when not negative, is `|w| * |h|`. */
  lemma ProductOfAbs(w: int, h: int)
    requires w * h >= 0
    ensures w * h == CInt.Abs(w) * CInt.Abs(h)
  {
    if w < 0 && h < 0 {
      assert w * h == (-w) * (-h);
    }
  }

  /** When the gid count is `width * height`, every row is full and there are
      `|height|` of them. */
  lemma ChunkRowsFull(gids: seq<int>, width: int, height: int)
    requires width != 0 && |gids| == width * height
    ensures var rows := ChunkRows(gids, width);
      && |rows| == CInt.Abs(height)
      && forall i :: 0 <= i < |rows| ==> |rows[i]| == CInt.Abs(width)
  {
    var rows := ChunkRows(gids, width);
    var a, b := CInt.Abs(width), CInt.Abs(height);
    ProductOfAbs(width, height);
    CInt.DivModUnique(|gids|, a, b, 0);
    if |rows| > 0 {
      var last := |rows[|rows| - 1]|;
      assert CInt.Mod(|gids|, width) == 0;
      LastRowFull(|gids|, width, |rows|, last);
      assert |gids| == (|rows| - 1) * a + a == |rows| * a;
      CInt.DivModUnique(|gids|, a, |rows|, 0);
    } else {
      assert a * b == 0;
      if b != 0 {
        CInt.MulAtLeast(b, a);
      }
    }
  }

  /** The registry entry a successfully loaded declaration becomes. */
  function TilesetOf(d: TilesetDecl): Tileset
    requires d.tsx.TsxSheet?
  {
    Tileset(d.firstGid, d.tsx.tileWidth, d.tsx.tileHeight, d.tsx.imageWidth, d.tsx.imageHeight, true)
  }

  /** The registry after the tileset loop, and the index of the declaration
      whose file failed to load, if any. */
  datatype TilesetPass = TilesetPass(registry: Registry, failedAt: Option<nat>)

  /** The tileset loop: append each declaration's tileset in order, stopping
      at the first one whose file fails. */
  function LoadTilesets(reg: Registry, decls: seq<TilesetDecl>): (r: TilesetPass)
    ensures r.failedAt.None? ==>
      && (forall i :: 0 <= i < |decls| ==> decls[i].tsx.TsxSheet?)
      && |r.registry| == |reg| + |decls|
    ensures r.failedAt.Some? ==>
      && r.failedAt.value < |decls|
      && decls[r.failedAt.value].tsx.TsxUnavailable?
      && (forall i :: 0 <= i < r.failedAt.value ==> decls[i].tsx.TsxSheet?)
      && |r.registry| == |reg| + r.failedAt.value
    ensures r.registry[..|reg|] == reg
    ensures forall i :: |reg| <= i < |r.registry| ==>
      decls[i - |reg|].tsx.TsxSheet? && r.registry[i] == TilesetOf(decls[i - |reg|])
    decreases |decls|
  {
    if |decls| == 0 then TilesetPass(reg, None)
    else if decls[0].tsx.TsxUnavailable? then TilesetPass(reg, Some(0))
    else
      var rest := LoadTilesets(reg + [TilesetOf(decls[0])], decls[1..]);
      assert rest.registry[..|reg|] == (reg + [TilesetOf(decls[0])])[..|reg|];
      match rest.failedAt
      case None => TilesetPass(rest.registry, None)
      case Some(k) => TilesetPass(rest.registry, Some(k + 1))
  }

  /** The layer loop is free of division by zero: a zero width is only met by
      layers without tiles, up to the first layer the loop rejects. */
  predicate LayersDefined(width: int, height: int, decls: seq<LayerDecl>)
    decreases |decls|
  {
    |decls| == 0 ||
    match decls[0].data
    case None => true
    case Some(gids) =>
      && (width != 0 || |gids| == 0)
      && (|gids| == width * height ==> LayersDefined(width, height, decls[1..]))
  }

  /** A layer declaration the loop accepts. */
  predicate LayerAccepted(width: int, height: int, d: LayerDecl) {
    d.data.Some? && |d.data.value| == width * height
  }

  /** Every layer has `|height|` rows of `|width|` gids (no rows at all when
      the width is zero). */
  predicate Shaped(layer: Layer, width: int, height: int) {
    && |layer| == (if width == 0 then 0 else CInt.Abs(height))
    && forall i :: 0 <= i < |layer| ==> |layer[i]| == CInt.Abs(width)
  }

  /** The layers the loop produced and the error that stopped it, if any. */
  datatype LayerPass = LayerPass(layers: seq<Layer>, error: Option<LoadError>)

  /** The layer loop, numbering layers from `offset` in its errors. */
  function LoadLayers(width: int, height: int, decls: seq<LayerDecl>, offset: nat): (r: LayerPass)
    requires LayersDefined(width, height, decls)
    ensures r.error.None? <==> forall i :: 0 <= i < |decls| ==> LayerAccepted(width, height, decls[i])
    ensures r.error.None? ==> |r.layers| == |decls|
    ensures r.error.Some? ==>
      && r.error.value.index - offset == |r.layers| < |decls|
      && (forall i :: 0 <= i < |r.layers| ==> LayerAccepted(width, height, decls[i]))
      && !LayerAccepted(width, height, decls[|r.layers|])
      && (decls[|r.layers|].data.None? <==> r.error.value.MissingData?)
      && (decls[|r.layers|].data.Some? <==> r.error.value.TileCountMismatch?)
    ensures forall i :: 0 <= i < |r.layers| ==>
      LayerAccepted(width, height, decls[i]) && r.layers[i] == ChunkRows(decls[i].data.value, width)
    decreases |decls|
  {
    if |decls| == 0 then LayerPass([], None)
    else
      match decls[0].data
      case None => LayerPass([], Some(MissingData(offset)))
      case Some(gids) =>
        var rows := ChunkRows(gids, width);
        if |gids| != width * height then LayerPass([], Some(TileCountMismatch(offset)))
        else
          var rest := LoadLayers(width, height, decls[1..], offset + 1);
          LayerPass([rows] + rest.layers, rest.error)
  }

  /** `loadTMX` on a parsed map, appending to the registry `reg` it starts from. */
  function LoadTmx(m: MapElement, reg: Registry): (r: LoadResult)
    requires (forall i :: 0 <= i < |m.tilesets| ==> m.tilesets[i].tsx.TsxSheet?) ==>
      LayersDefined(m.width, m.height, m.layers)
  {
    var ts := LoadTilesets(reg, m.tilesets);
    match ts.failedAt
    case Some(k) => LoadResult(Failed(TilesetFailed(k)), ts.registry, [])
    case None =>
      var ls := LoadLayers(m.width, m.height, m.layers, 0);
      match ls.error
      case Some(e) => LoadResult(Failed(e), ts.registry, ls.layers)
      case None => LoadResult(Loaded, ts.registry, ls.layers)
  }

  /** The load succeeds exactly when every tileset file loads and every layer
      has data with exactly `width * height` gids; the registry then holds the
      declarations' tilesets after the starting entries, in declaration
      order, and every layer is its gids in row-major order with `|height|`
      rows of `|width|` gids. */
  lemma LoadTmxLoaded(m: MapElement, reg: Registry)
    requires (forall i :: 0 <= i < |m.tilesets| ==> m.tilesets[i].tsx.TsxSheet?) ==>
      LayersDefined(m.width, m.height, m.layers)
    ensures var r := LoadTmx(m, reg);
      r.status.Loaded? <==>
        && (forall i :: 0 <= i < |m.tilesets| ==> m.tilesets[i].tsx.TsxSheet?)
        && (forall i :: 0 <= i < |m.layers| ==> LayerAccepted(m.width, m.height, m.layers[i]))
    ensures var r := LoadTmx(m, reg);
      r.status.Loaded? ==>
        && |r.registry| == |reg| + |m.tilesets|
        && r.registry[..|reg|] == reg
        && (forall i :: 0 <= i < |m.tilesets| ==> r.registry[|reg| + i] == TilesetOf(m.tilesets[i]))
        && |r.layers| == |m.layers|
        && (forall l :: 0 <= l < |r.layers| ==>
              Shaped(r.layers[l], m.width, m.height) && Flatten(r.layers[l]) == m.layers[l].data.value)
  {
    var r := LoadTmx(m, reg);
    var ts := LoadTilesets(reg, m.tilesets);
    if ts.failedAt.Some? {
      assert !m.tilesets[ts.failedAt.value].tsx.TsxSheet?;
    }
    if r.status.Loaded? {
      forall i | 0 <= i < |m.tilesets|
        ensures r.registry[|reg| + i] == TilesetOf(m.tilesets[i])
      {
        assert |reg| <= |reg| + i < |r.registry|;
      }
      forall l | 0 <= l < |r.layers|
        ensures Shaped(r.layers[l], m.width, m.height) && Flatten(r.layers[l]) == m.layers[l].data.value
      {
        var gids := m.layers[l].data.value;
        if m.width != 0 {
          ChunkRowsFull(gids, m.width, m.height);
        }
      }
    }
  }

  /** A failed load reports where it stopped and leaves behind exactly what
      was appended before that point: the tilesets declared before a failing
      one (and no layers), or all tilesets and the layers before a rejected
      one. */
  lemma LoadTmxFailed(m: MapElement, reg: Registry)
    requires (forall i :: 0 <= i < |m.tilesets| ==> m.tilesets[i].tsx.TsxSheet?) ==>
      LayersDefined(m.width, m.height, m.layers)
    ensures var r := LoadTmx(m, reg);
      r.status.Failed? && r.status.error.TilesetFailed? ==>
        var k := r.status.error.index;
        && k < |m.tilesets| && m.tilesets[k].tsx.TsxUnavailable?
        && |r.registry| == |reg| + k && r.registry[..|reg|] == reg
        && r.layers == []
    ensures var r := LoadTmx(m, reg);
      r.status.Failed? && !r.status.error.TilesetFailed? ==>
        var k := r.status.error.index;
        && |r.registry| == |reg| + |m.tilesets|
        && k == |r.layers| < |m.layers|
        && !LayerAccepted(m.width, m.height, m.layers[k])
        && (r.status.error.MissingData? <==> m.layers[k].data.None?)
        && forall l :: 0 <= l < k ==> r.layers[l] == ChunkRows(m.layers[l].data.value, m.width)
  {
  }
}

=== FILE: player.dfy ===
/** The player sprite of player.h: a sheet of 192x192 frames, one row per
    animation state, and a frame clock that advances at most one frame per
    call. */
module Player {
  import opened Tiles
  import CInt

  const PLAYER_WIDTH: int := 192
  const PLAYER_HEIGHT: int := 192
  const TOTAL_FRAMES_IDLE: int := 6
  const TOTAL_FRAMES_RUNNING: int := 6
  /** 100 ms per frame; an exact real here, a `float` in the source. */
  const FRAME_DURATION: real := 0.1

  datatype AnimationState = Idle | Running

  /** The frame index and the time since the last frame advance. */
  datatype Clock = Clock(currentFrame: int, timeSinceLastFrame: real)

  /** The number of frames of a state's row. */
  function TotalFrames(state: AnimationState): (n: int)
    ensures n == 6
  {
    match state
    case Idle => TOTAL_FRAMES_IDLE
    case Running => TOTAL_FRAMES_RUNNING
  }

  /** This call's accumulated time reaches the frame duration. */
  predicate Advances(c: Clock, deltaTime: real) {
    c.timeSinceLastFrame + deltaTime >= FRAME_DURATION
  }

  /** The frames the sheet has, plus the -1 the game starts from. */
  predicate FrameInRange(frame: int) {
    -1 <= frame < 6
  }

  /** `updatePlayerAnimationFrame`: add the elapsed time; on reaching the frame
      duration, give back one duration and step to the next frame with the
      signed `%` of C++. Incrementing the largest `int` is undefined, so that
      frame is excluded on the advancing path. */
  function UpdatePlayerAnimationFrame(state: AnimationState, c: Clock, deltaTime: real): (r: Clock)
    requires Advances(c, deltaTime) ==> c.currentFrame < CInt.INT32_MAX
    ensures !Advances(c, deltaTime) ==>
      r.currentFrame == c.currentFrame && r.timeSinceLastFrame == c.timeSinceLastFrame + deltaTime
    ensures Advances(c, deltaTime) ==> r.timeSinceLastFrame + FRAME_DURATION == c.timeSinceLastFrame + deltaTime
    ensures Advances(c, deltaTime) && c.currentFrame >= -1 ==>
      0 <= r.currentFrame < 6 && r.currentFrame == (c.currentFrame + 1) % 6
    ensures Advances(c, deltaTime) && c.currentFrame == -1 ==> r.currentFrame == 0
    ensures FrameInRange(c.currentFrame) ==> FrameInRange(r.currentFrame)
  {
    var elapsed := c.timeSinceLastFrame + deltaTime;
    if elapsed >= FRAME_DURATION then
      var next := CInt.Mod(c.currentFrame + 1, TotalFrames(state));
      CInt.DivModIdentity(c.currentFrame + 1, TotalFrames(state));
      AdvanceFromRange(c.currentFrame);
      Clock(next, elapsed - FRAME_DURATION)
    else
      Clock(c.currentFrame, elapsed)
  }

  /** From -1 or above, the signed remainder is the mathematical one. */
  lemma AdvanceFromRange(frame: int)
    ensures frame >= -1 ==> CInt.Mod(frame + 1, 6) == (frame + 1) % 6 && 0 <= (frame + 1) % 6 < 6
  {
    if frame >= -1 {
      CInt.DivModNonNegative(frame + 1, 6);
    }
  }

  /** Both states have six frames, so the state never changes the update. */
  lemma UpdateIgnoresState(c: Clock, deltaTime: real)
    requires Advances(c, deltaTime) ==> c.currentFrame < CInt.INT32_MAX
    ensures UpdatePlayerAnimationFrame(Idle, c, deltaTime) == UpdatePlayerAnimationFrame(Running, c, deltaTime)
  {
  }

  /** Below -1 the remainder keeps the sign of the dividend: a frame of -3
      becomes -2, not 4. The game never reaches such a frame (it starts at -1
      and is only ever reset to 0). */
  lemma SignedRemainderBelowMinusOne()
    ensures UpdatePlayerAnimationFrame(Running, Clock(-3, 0.0), 0.1).currentFrame == -2
  {
    CInt.DivModIdentity(-2, 6);
  }

  /** A long pause still advances only one frame: 0.35 s from a fresh clock
      at frame 4 gives frame 5 with 0.25 s kept. */
  lemma OneFramePerCall()
    ensures UpdatePlayerAnimationFrame(Idle, Clock(4, 0.0), 0.35) == Clock(5, 0.25)
  {
    AdvanceFromRange(4);
  }

  /** Horizontal mirroring, or none. */
  datatype Flip = FlipNone | FlipHorizontal

  /** The arguments of the `SDL_RenderCopyEx` call that draws the player. */
  datatype PlayerDraw = PlayerDraw(src: Rect, dst: Rect, flip: Flip)

  /** The products `currentFrame * 192` and `row * 192` fit in an `int`
      (overflowing them is undefined). */
  predicate SpriteDefined(currentFrame: int, row: int) {
    CInt.IsInt32(currentFrame * PLAYER_WIDTH) && CInt.IsInt32(row * PLAYER_HEIGHT)
  }

  /** `renderPlayerAnimation`: cut frame `currentFrame` of sheet row `row` and
      draw it unscaled at `(x, y)`, mirrored when `flip` is set. */
  function RenderPlayerAnimation(currentFrame: int, row: int, x: int, y: int, flip: bool): (r: PlayerDraw)
    requires SpriteDefined(currentFrame, row)
    ensures r.src.w == PLAYER_WIDTH && r.src.h == PLAYER_HEIGHT
    ensures r.dst == Rect(x, y, PLAYER_WIDTH, PLAYER_HEIGHT)
    ensures r.flip == FlipHorizontal <==> flip
  {
    PlayerDraw(
      Rect(currentFrame * PLAYER_WIDTH, row * PLAYER_HEIGHT, PLAYER_WIDTH, PLAYER_HEIGHT),
      Rect(x, y, PLAYER_WIDTH, PLAYER_HEIGHT),
      if flip then FlipHorizontal else FlipNone)
  }

  /** The frame and row a source rectangle was cut from. */
  function SheetCell(src: Rect): (int, int) {
    (src.x / PLAYER_WIDTH, src.y / PLAYER_HEIGHT)
  }

  /** The source rectangle lies on the 192-pixel grid and gives back the frame
      and the row it was cut for; a frame in the sheet lies inside its six
      columns. */
  lemma PlayerSourceGivesCell(currentFrame: int, row: int, x: int, y: int, flip: bool)
    requires SpriteDefined(currentFrame, row)
    ensures var r := RenderPlayerAnimation(currentFrame, row, x, y, flip);
      && SheetCell(r.src) == (currentFrame, row)
      && r.src.x % PLAYER_WIDTH == 0 && r.src.y % PLAYER_HEIGHT == 0
      && (0 <= currentFrame < 6 ==> 0 <= r.src.x && r.src.x + r.src.w <= 6 * PLAYER_WIDTH)
  {
    CInt.MultipleOf(currentFrame, PLAYER_WIDTH);
    CInt.MultipleOf(row, PLAYER_HEIGHT);
  }
}

=== FILE: render.dfy ===
/** `renderMap`, in both versions: Game.cpp draws every resolved cell from
    its own gid; forAnimation.cpp first looks the gid up among the animated
    tiles and, on a hit, cuts the source rectangle for the tile's current
    frame instead. Both visit every layer, every row and every column in
    order and emit one draw per cell that has a positive gid, a tileset and
    a texture. */
module Renderer {
  import opened Wrappers
  import opened Tiles
  import TileAnimation

  /** Which `renderMap` runs: Game.cpp's, or forAnimation.cpp's with its list
      of animated tiles. */
  datatype Variant = Static | Animated(anims: seq<TileAnimation.AnimatedTile>)

  /** A map as loaded: layers of rows of gids. Rows need not share a length;
      the renderer walks whatever is there. */
  type Grid = seq<seq<seq<int>>>

  /** A map cell: layer, row (`y`) and column (`x`). */
  datatype Cell = Cell(layer: nat, row: nat, col: nat)

  /** A draw together with the cell it was emitted for. */
  datatype Placed = Placed(cell: Cell, draw: Draw)

  /** Painter's order: layer first, then row, then column. */
  predicate CellBefore(a: Cell, b: Cell) {
    || a.layer < b.layer
    || (a.layer == b.layer && a.row < b.row)
    || (a.layer == b.layer && a.row == b.row && a.col < b.col)
  }

  /** A cell is drawn when its gid is positive, resolves to a tileset, and that
      tileset's texture is loaded. */
  predicate Drawable(reg: Registry, gid: int) {
    gid > 0 && Resolve(reg, gid).Some? && reg[Resolve(reg, gid).value].hasTexture
  }

  /** For the animated variant: the frame index of the gid's animated tile,
      if it has one, indexes its frame list. */
  predicate FrameDefined(v: Variant, gid: int) {
    match v
    case Static => true
    case Animated(anims) =>
      match TileAnimation.FirstAnimated(anims, gid)
      case None => true
      case Some(j) => TileAnimation.FrameValid(anims[j])
    }

  /** Processing the cell is free of undefined behaviour: a drawn cell's
      tileset admits the divisions, and its animated frame (if any) exists. */
  predicate CellDefined(v: Variant, reg: Registry, gid: int) {
    Drawable(reg, gid) ==> SheetDefined(reg[Resolve(reg, gid).value]) && FrameDefined(v, gid)
  }

  predicate GridDefined(v: Variant, reg: Registry, grid: Grid) {
    forall l, y, x :: 0 <= l < |grid| && 0 <= y < |grid[l]| && 0 <= x < |grid[l][y]| ==>
      CellDefined(v, reg, grid[l][y][x])
  }

  /** The local index the source rectangle is cut for, once `gid` has resolved
      to `ts`: the gid's own offset, or for an animated gid the offset of the
      current frame's gid from the same tileset's `firstGid`. */
  function SourceIndex(v: Variant, ts: Tileset, gid: int): int
    requires FrameDefined(v, gid)
  {
    match v
    case Static => gid - ts.firstGid
    case Animated(anims) =>
      match TileAnimation.FirstAnimated(anims, gid)
      case None => gid - ts.firstGid
      case Some(j) => anims[j].frames[anims[j].currentFrame] - ts.firstGid
  }

  /** The draw emitted for the cell at column `col`, row `row` holding `gid`. */
  function CellDraw(v: Variant, reg: Registry, cam: Camera, gid: int, col: nat, row: nat): (r: Option<Draw>)
    requires CellDefined(v, reg, gid)
    ensures r.Some? <==> Drawable(reg, gid)
    ensures r.Some? ==> IsLastMatch(reg, gid, r.value.tileset) && reg[r.value.tileset].hasTexture
  {
    if !Drawable(reg, gid) then None
    else
      var i := Resolve(reg, gid).value;
      Some(Draw(i, SourceRect(reg[i], SourceIndex(v, reg[i], gid)), DestRect(reg[i], col, row, cam)))
  }

  /** The draws of row `row` of layer `layer`, from column `from` on. */
  function RowPlan(v: Variant, reg: Registry, cam: Camera, layer: nat, row: nat, cells: seq<int>, from: nat): seq<Placed>
    requires from <= |cells|
    requires forall x :: 0 <= x < |cells| ==> CellDefined(v, reg, cells[x])
    decreases |cells| - from
  {
    if from == |cells| then []
    else
      var rest := RowPlan(v, reg, cam, layer, row, cells, from + 1);
      match CellDraw(v, reg, cam, cells[from], from, row)
      case None => rest
      case Some(d) => [Placed(Cell(layer, row, from), d)] + rest
  }

  /** The draws are in painter's order. */
  predicate Sorted(p: seq<Placed>) {
    forall i, j :: 0 <= i < j < |p| ==> CellBefore(p[i].cell, p[j].cell)
  }

  /** Two runs in painter's order, the first wholly before the second, join
      into one. */
  lemma ConcatSorted(a: seq<Placed>, b: seq<Placed>)
    requires Sorted(a) && Sorted(b)
    requires forall i, j :: 0 <= i < |a| && 0 <= j < |b| ==> CellBefore(a[i].cell, b[j].cell)
    ensures Sorted(a + b)
  {
    var c := a + b;
    forall i, j | 0 <= i < j < |c|
      ensures CellBefore(c[i].cell, c[j].cell)
    {
      if j < |a| {
        assert c[i] == a[i] && c[j] == a[j];
      } else if i >= |a| {
        assert c[i] == b[i - |a|] && c[j] == b[j - |a|];
      } else {
        assert c[i] == a[i] && c[j] == b[j - |a|];
      }
    }
  }

  /** A row's draws are exactly the draws of its drawable cells from column
      `from` on, each placed on its cell, left to right. */
  lemma {:induction false} RowPlanSpec(v: Variant, reg: Registry, cam: Camera, layer: nat, row: nat, cells: seq<int>, from: nat)
    requires from <= |cells|
    requires forall x :: 0 <= x < |cells| ==> CellDefined(v, reg, cells[x])
    ensures var p := RowPlan(v, reg, cam, layer, row, cells, from);
      && (forall k :: 0 <= k < |p| ==>
            && p[k].cell.layer == layer && p[k].cell.row == row
            && from <= p[k].cell.col < |cells|
            && CellDraw(v, reg, cam, cells[p[k].cell.col], p[k].cell.col, row) == Some(p[k].draw))
      && Sorted(p)
      && (forall x :: from <= x < |cells| && Drawable(reg, cells[x]) ==>
            Placed(Cell(layer, row, x), CellDraw(v, reg, cam, cells[x], x, row).value) in p)
    decreases |cells| - from
  {
    if from < |cells| {
      var rest := RowPlan(v, reg, cam, layer, row, cells, from + 1);
      RowPlanSpec(v, reg, cam, layer, row, cells, from + 1);
      match CellDraw(v, reg, cam, cells[from], from, row)
      case None =>
        assert RowPlan(v, reg, cam, layer, row, cells, from) == rest;
      case Some(d) =>
        var q := [Placed(Cell(layer, row, from), d)];
        var p := q + rest;
        assert RowPlan(v, reg, cam, layer, row, cells, from) == p;
        forall i, j | 0 <= i < |q| && 0 <= j < |rest|
          ensures CellBefore(q[i].cell, rest[j].cell)
        {
        }
        ConcatSorted(q, rest);
        forall k | 0 <= k < |p|
          ensures && p[k].cell.layer == layer && p[k].cell.row == row
            && from <= p[k].cell.col < |cells|
            && CellDraw(v, reg, cam, cells[p[k].cell.col], p[k].cell.col, row) == Some(p[k].draw)
        {
          if k > 0 {
            assert p[k] == rest[k - 1];
          }
        }
        forall x | from <= x < |cells| && Drawable(reg, cells[x])
          ensures Placed(Cell(layer, row, x), CellDraw(v, reg, cam, cells[x], x, row).value) in p
        {
          if x > from {
            assert Placed(Cell(layer, row, x), CellDraw(v, reg, cam, cells[x], x, row).value) in rest;
          }
        }
    }
  }

  /** The draws of layer `layer`, from row `from` on. */
  function LayerPlan(v: Variant, reg: Registry, cam: Camera, layer: nat, rows: seq<seq<int>>, from: nat): seq<Placed>
    requires from <= |rows|
    requires forall y, x :: 0 <= y < |rows| && 0 <= x < |rows[y]| ==> CellDefined(v, reg, rows[y][x])
    decreases |rows| - from
  {
    if from == |rows| then []
    else RowPlan(v, reg, cam, layer, from, rows[from], 0) + LayerPlan(v, reg, cam, layer, rows, from + 1)
  }

  /** The placed draw lies on a cell of layer `layer`, at row `from` or
      later, and is the draw for that cell. */
  predicate PlacedInLayer(v: Variant, reg: Registry, cam: Camera, layer: nat, rows: seq<seq<int>>, from: nat, q: Placed)
    requires forall y, x :: 0 <= y < |rows| && 0 <= x < |rows[y]| ==> CellDefined(v, reg, rows[y][x])
  {
    var c := q.cell;
    && c.layer == layer && from <= c.row < |rows| && c.col < |rows[c.row]|
    && CellDraw(v, reg, cam, rows[c.row][c.col], c.col, c.row) == Some(q.draw)
  }

  /** A layer's draws are exactly the draws of its drawable cells, each placed
      on its cell, in row-then-column order. */
  lemma {:induction false} LayerPlanSpec(v: Variant, reg: Registry, cam: Camera, layer: nat, rows: seq<seq<int>>, from: nat)
    requires from <= |rows|
    requires forall y, x :: 0 <= y < |rows| && 0 <= x < |rows[y]| ==> CellDefined(v, reg, rows[y][x])
    ensures var p := LayerPlan(v, reg, cam, layer, rows, from);
      && (forall k :: 0 <= k < |p| ==> PlacedInLayer(v, reg, cam, layer, rows, from, p[k]))
      && Sorted(p)
      && (forall y, x :: from <= y < |rows| && 0 <= x < |rows[y]| && Drawable(reg, rows[y][x]) ==>
            Placed(Cell(layer, y, x), CellDraw(v, reg, cam, rows[y][x], x, y).value) in p)
    decreases |rows| - from
  {
    if from < |rows| {
      var here := RowPlan(v, reg, cam, layer, from, rows[from], 0);
      var rest := LayerPlan(v, reg, cam, layer, rows, from + 1);
      RowPlanSpec(v, reg, cam, layer, from, rows[from], 0);
      LayerPlanSpec(v, reg, cam, layer, rows, from + 1);
      var p := here + rest;
      assert p == LayerPlan(v, reg, cam, layer, rows, from);
      forall k | 0 <= k < |p|
        ensures PlacedInLayer(v, reg, cam, layer, rows, from, p[k])
      {
        if k < |here| {
          assert p[k] == here[k];
        } else {
          assert p[k] == rest[k - |here|];
          assert PlacedInLayer(v, reg, cam, layer, rows, from + 1, rest[k - |here|]);
        }
      }
      forall i, j | 0 <= i < |here| && 0 <= j < |rest|
        ensures CellBefore(here[i].cell, rest[j].cell)
      {
        assert PlacedInLayer(v, reg, cam, layer, rows, from + 1, rest[j]);
      }
      ConcatSorted(here, rest);
      forall y, x | from <= y < |rows| && 0 <= x < |rows[y]| && Drawable(reg, rows[y][x])
        ensures Placed(Cell(layer, y, x), CellDraw(v, reg, cam, rows[y][x], x, y).value) in p
      {
        if y == from {
          assert Placed(Cell(layer, y, x), CellDraw(v, reg, cam, rows[y][x], x, y).value) in here;
        } else {
          assert Placed(Cell(layer, y, x), CellDraw(v, reg, cam, rows[y][x], x, y).value) in rest;
        }
      }
    }
  }

  /** The draws of the map, from layer `from` on. */
  function MapPlan(v: Variant, reg: Registry, cam: Camera, grid: Grid, from: nat): seq<Placed>
    requires from <= |grid|
    requires GridDefined(v, reg, grid)
    decreases |grid| - from
  {
    if from == |grid| then []
    else LayerPlan(v, reg, cam, from, grid[from], 0) + MapPlan(v, reg, cam, grid, from + 1)
  }

  /** The placed draw lies on a cell of the grid, in layer `from` or later,
      and is the draw for that cell. */
  predicate PlacedAt(v: Variant, reg: Registry, cam: Camera, grid: Grid, from: nat, q: Placed)
    requires GridDefined(v, reg, grid)
  {
    var c := q.cell;
    && from <= c.layer < |grid| && c.row < |grid[c.layer]| && c.col < |grid[c.layer][c.row]|
    && CellDraw(v, reg, cam, grid[c.layer][c.row][c.col], c.col, c.row) == Some(q.draw)
  }

  /** The map's draws are exactly the draws of its drawable cells, each placed
      on its cell, in layer-then-row-then-column order. */
  lemma {:induction false} MapPlanSpec(v: Variant, reg: Registry, cam: Camera, grid: Grid, from: nat)
    requires from <= |grid|
    requires GridDefined(v, reg, grid)
    ensures var p := MapPlan(v, reg, cam, grid, from);
      && (forall k :: 0 <= k < |p| ==> PlacedAt(v, reg, cam, grid, from, p[k]))
      && Sorted(p)
      && (forall l, y, x :: from <= l < |grid| && 0 <= y < |grid[l]| && 0 <= x < |grid[l][y]| && Drawable(reg, grid[l][y][x]) ==>
            Placed(Cell(l, y, x), CellDraw(v, reg, cam, grid[l][y][x], x, y).value) in p)
    decreases |grid| - from
  {
    if from < |grid| {
      var here := LayerPlan(v, reg, cam, from, grid[from], 0);
      var rest := MapPlan(v, reg, cam, grid, from + 1);
      LayerPlanSpec(v, reg, cam, from, grid[from], 0);
      MapPlanSpec(v, reg, cam, grid, from + 1);
      var p := here + rest;
      assert p == MapPlan(v, reg, cam, grid, from);
      forall k | 0 <= k < |p|
        ensures PlacedAt(v, reg, cam, grid, from, p[k])
      {
        if k < |here| {
          assert p[k] == here[k];
          assert PlacedInLayer(v, reg, cam, from, grid[from], 0, here[k]);
        } else {
          assert p[k] == rest[k - |here|];
          assert PlacedAt(v, reg, cam, grid, from + 1, rest[k - |here|]);
        }
      }
      forall i, j | 0 <= i < |here| && 0 <= j < |rest|
        ensures CellBefore(here[i].cell, rest[j].cell)
      {
        assert PlacedInLayer(v, reg, cam, from, grid[from], 0, here[i]);
        assert PlacedAt(v, reg, cam, grid, from + 1, rest[j]);
      }
      ConcatSorted(here, rest);
      forall l, y, x | from <= l < |grid| && 0 <= y < |grid[l]| && 0 <= x < |grid[l][y]| && Drawable(reg, grid[l][y][x])
        ensures Placed(Cell(l, y, x), CellDraw(v, reg, cam, grid[l][y][x], x, y).value) in p
      {
        if l == from {
          assert Placed(Cell(l, y, x), CellDraw(v, reg, cam, grid[l][y][x], x, y).value) in here;
        } else {
          assert Placed(Cell(l, y, x), CellDraw(v, reg, cam, grid[l][y][x], x, y).value) in rest;
        }
      }
    }
  }

  /** The draw calls alone, in order. */
  function Draws(p: seq<Placed>): (r: seq<Draw>)
    ensures |r| == |p| && forall k :: 0 <= k < |p| ==> r[k] == p[k].draw
  {
    seq(|p|, k requires 0 <= k < |p| => p[k].draw)
  }

  /** The sequence of `SDL_RenderCopy` calls of one `renderMap`. */
  function Render(v: Variant, reg: Registry, cam: Camera, grid: Grid): seq<Draw>
    requires GridDefined(v, reg, grid)
  {
    Draws(MapPlan(v, reg, cam, grid, 0))
  }

  /** `renderMap` of Game.cpp. */
  function RenderMap(grid: Grid, reg: Registry, cam: Camera): (r: seq<Draw>)
    requires GridDefined(Static, reg, grid)
    ensures r == [] <==> !AnyDrawable(reg, grid)
  {
    RenderEmptyIff(Static, reg, cam, grid);
    Render(Static, reg, cam, grid)
  }

  /** `renderMap` of forAnimation.cpp. */
  function RenderMapAnimated(grid: Grid, reg: Registry, anims: seq<TileAnimation.AnimatedTile>, cam: Camera): (r: seq<Draw>)
    requires GridDefined(Animated(anims), reg, grid)
    ensures r == [] <==> !AnyDrawable(reg, grid)
  {
    RenderEmptyIff(Animated(anims), reg, cam, grid);
    Render(Animated(anims), reg, cam, grid)
  }

  /** Some cell of the grid is drawable. */
  predicate AnyDrawable(reg: Registry, grid: Grid) {
    exists l, y, x :: 0 <= l < |grid| && 0 <= y < |grid[l]| && 0 <= x < |grid[l][y]| && Drawable(reg, grid[l][y][x])
  }

  /** A frame draws something exactly when some cell is drawable. */
  lemma RenderEmptyIff(v: Variant, reg: Registry, cam: Camera, grid: Grid)
    requires GridDefined(v, reg, grid)
    ensures Render(v, reg, cam, grid) == [] <==> !AnyDrawable(reg, grid)
  {
    MapPlanSpec(v, reg, cam, grid, 0);
    var p := MapPlan(v, reg, cam, grid, 0);
    if |p| > 0 {
      assert PlacedAt(v, reg, cam, grid, 0, p[0]);
      var c := p[0].cell;
      assert Drawable(reg, grid[c.layer][c.row][c.col]);
    }
  }

  /** A map of empty cells (gid 0, as Tiled writes them) draws nothing,
      whatever the tilesets and the camera. */
  lemma EmptyCellsDrawNothing(v: Variant, reg: Registry, cam: Camera, grid: Grid)
    requires forall l, y, x :: 0 <= l < |grid| && 0 <= y < |grid[l]| && 0 <= x < |grid[l][y]| ==> grid[l][y][x] <= 0
    ensures GridDefined(v, reg, grid)
    ensures Render(v, reg, cam, grid) == []
  {
    RenderEmptyIff(v, reg, cam, grid);
  }

  /** Cell by cell, the animated renderer draws where the static one does, from
      the same tileset to the same screen rectangle; it differs only in the
      source rectangle, and only for a gid that has an animated tile, whose
      current frame's gid is then cut from the tileset the cell's own gid
      resolved to. */
  lemma AnimatedCellDraw(anims: seq<TileAnimation.AnimatedTile>, reg: Registry, cam: Camera, gid: int, col: nat, row: nat)
    requires CellDefined(Animated(anims), reg, gid)
    ensures CellDefined(Static, reg, gid)
    ensures var a := CellDraw(Animated(anims), reg, cam, gid, col, row);
      var s := CellDraw(Static, reg, cam, gid, col, row);
      && (a.Some? <==> s.Some?)
      && (a.Some? ==> a.value.tileset == s.value.tileset && a.value.dst == s.value.dst)
      && (a.Some? && TileAnimation.FirstAnimated(anims, gid).None? ==> a == s)
      && (a.Some? && TileAnimation.FirstAnimated(anims, gid).Some? ==>
            var t := anims[TileAnimation.FirstAnimated(anims, gid).value];
            var ts := reg[s.value.tileset];
            && 0 <= t.currentFrame < |t.frames|
            && a.value.src == SourceRect(ts, t.frames[t.currentFrame] - ts.firstGid))
  {
  }

  /** For the static renderer, a drawable gid's source rectangle is cut at a
      non-negative index; on a sheet with positive tile sizes it lies on the
      tile grid, inside the image horizontally, and gives back the gid's index
      within its tileset. */
  lemma StaticSourceInSheet(reg: Registry, cam: Camera, gid: int, col: nat, row: nat)
    requires Drawable(reg, gid)
    requires PositiveSheet(reg[Resolve(reg, gid).value])
    ensures CellDefined(Static, reg, gid)
    ensures var d := CellDraw(Static, reg, cam, gid, col, row).value;
      var ts := reg[d.tileset];
      && 0 <= d.src.x && d.src.x + d.src.w <= ts.imageWidth && 0 <= d.src.y
      && TileIndexAt(ts, d.src) == gid - ts.firstGid
  {
    var i := Resolve(reg, gid).value;
    SourceRectInSheet(reg[i], gid - reg[i].firstGid);
  }

  /** No animated tile names a gid of the grid. */
  predicate NoAnimatedCell(anims: seq<TileAnimation.AnimatedTile>, grid: Grid) {
    forall l, y, x :: 0 <= l < |grid| && 0 <= y < |grid[l]| && 0 <= x < |grid[l][y]| ==>
      TileAnimation.FirstAnimated(anims, grid[l][y][x]).None?
  }

  lemma {:induction false} UnanimatedRowPlan(anims: seq<TileAnimation.AnimatedTile>, reg: Registry, cam: Camera, layer: nat, row: nat, cells: seq<int>, from: nat)
    requires from <= |cells|
    requires forall x :: 0 <= x < |cells| ==> CellDefined(Static, reg, cells[x])
    requires forall x :: 0 <= x < |cells| ==> TileAnimation.FirstAnimated(anims, cells[x]).None?
    ensures forall x :: 0 <= x < |cells| ==> CellDefined(Animated(anims), reg, cells[x])
    ensures RowPlan(Animated(anims), reg, cam, layer, row, cells, from) == RowPlan(Static, reg, cam, layer, row, cells, from)
    decreases |cells| - from
  {
    if from < |cells| {
      UnanimatedRowPlan(anims, reg, cam, layer, row, cells, from + 1);
      assert CellDraw(Animated(anims), reg, cam, cells[from], from, row) == CellDraw(Static, reg, cam, cells[from], from, row);
    }
  }

  lemma {:induction false} UnanimatedLayerPlan(anims: seq<TileAnimation.AnimatedTile>, reg: Registry, cam: Camera, layer: nat, rows: seq<seq<int>>, from: nat)
    requires from <= |rows|
    requires forall y, x :: 0 <= y < |rows| && 0 <= x < |rows[y]| ==> CellDefined(Static, reg, rows[y][x])
    requires forall y, x :: 0 <= y < |rows| && 0 <= x < |rows[y]| ==> TileAnimation.FirstAnimated(anims, rows[y][x]).None?
    ensures forall y, x :: 0 <= y < |rows| && 0 <= x < |rows[y]| ==> CellDefined(Animated(anims), reg, rows[y][x])
    ensures LayerPlan(Animated(anims), reg, cam, layer, rows, from) == LayerPlan(Static, reg, cam, layer, rows, from)
    decreases |rows| - from
  {
    if from < |rows| {
      UnanimatedRowPlan(anims, reg, cam, layer, from, rows[from], 0);
      UnanimatedLayerPlan(anims, reg, cam, layer, rows, from + 1);
    } else {
      forall y, x | 0 <= y < |rows| && 0 <= x < |rows[y]|
        ensures CellDefined(Animated(anims), reg, rows[y][x])
      {
        UnanimatedRowPlan(anims, reg, cam, layer, y, rows[y], 0);
      }
    }
  }

  lemma {:induction false} UnanimatedMapPlan(anims: seq<TileAnimation.AnimatedTile>, reg: Registry, cam: Camera, grid: Grid, from: nat)
    requires from <= |grid|
    requires GridDefined(Static, reg, grid)
    requires NoAnimatedCell(anims, grid)
    ensures GridDefined(Animated(anims), reg, grid)
    ensures MapPlan(Animated(anims), reg, cam, grid, from) == MapPlan(Static, reg, cam, grid, from)
    decreases |grid| - from
  {
    forall l | 0 <= l < |grid|
      ensures forall y, x :: 0 <= y < |grid[l]| && 0 <= x < |grid[l][y]| ==> CellDefined(Animated(anims), reg, grid[l][y][x])
    {
      UnanimatedLayerPlan(anims, reg, cam, l, grid[l], |grid[l]|);
    }
    if from < |grid| {
      UnanimatedLayerPlan(anims, reg, cam, from, grid[from], 0);
      UnanimatedMapPlan(anims, reg, cam, grid, from + 1);
    }
  }

  /** With no animated tile for any of its gids, forAnimation.cpp's renderer
      issues exactly the draws of Game.cpp's. */
  lemma UnanimatedRendersStatic(anims: seq<TileAnimation.AnimatedTile>, reg: Registry, cam: Camera, grid: Grid)
    requires GridDefined(Static, reg, grid)
    requires NoAnimatedCell(anims, grid)
    ensures GridDefined(Animated(anims), reg, grid)
    ensures RenderMapAnimated(grid, reg, anims, cam) == RenderMap(grid, reg, cam)
  {
    UnanimatedMapPlan(anims, reg, cam, grid, 0);
  }

  /** Two plans draw the same cells in the same order, each from the same
      tileset to the same screen rectangle; only source rectangles may differ. */
  predicate SameCells(p: seq<Placed>, q: seq<Placed>) {
    && |p| == |q|
    && forall k :: 0 <= k < |p| ==>
      p[k].cell == q[k].cell && p[k].draw.tileset == q[k].draw.tileset && p[k].draw.dst == q[k].draw.dst
  }

  lemma ConcatSameCells(a: seq<Placed>, b: seq<Placed>, c: seq<Placed>, d: seq<Placed>)
    requires SameCells(a, c) && SameCells(b, d)
    ensures SameCells(a + b, c + d)
  {
    forall k | 0 <= k < |a + b|
      ensures (a + b)[k].cell == (c + d)[k].cell && (a + b)[k].draw.tileset == (c + d)[k].draw.tileset
        && (a + b)[k].draw.dst == (c + d)[k].draw.dst
    {
      if k < |a| {
        assert (a + b)[k] == a[k] && (c + d)[k] == c[k];
      } else {
        assert (a + b)[k] == b[k - |a|] && (c + d)[k] == d[k - |a|];
      }
    }
  }

  lemma {:induction false} AnimatedRowPlan(anims: seq<TileAnimation.AnimatedTile>, reg: Registry, cam: Camera, layer: nat, row: nat, cells: seq<int>, from: nat)
    requires from <= |cells|
    requires forall x :: 0 <= x < |cells| ==> CellDefined(Animated(anims), reg, cells[x])
    ensures forall x :: 0 <= x < |cells| ==> CellDefined(Static, reg, cells[x])
    ensures SameCells(RowPlan(Animated(anims), reg, cam, layer, row, cells, from), RowPlan(Static, reg, cam, layer, row, cells, from))
    decreases |cells| - from
  {
    forall x | 0 <= x < |cells|
      ensures CellDefined(Static, reg, cells[x])
    {
      AnimatedCellDraw(anims, reg, cam, cells[x], x, row);
    }
    if from < |cells| {
      AnimatedRowPlan(anims, reg, cam, layer, row, cells, from + 1);
      AnimatedCellDraw(anims, reg, cam, cells[from], from, row);
      var a := CellDraw(Animated(anims), reg, cam, cells[from], from, row);
      var s := CellDraw(Static, reg, cam, cells[from], from, row);
      if a.Some? {
        ConcatSameCells([Placed(Cell(layer, row, from), a.value)], RowPlan(Animated(anims), reg, cam, layer, row, cells, from + 1),
          [Placed(Cell(layer, row, from), s.value)], RowPlan(Static, reg, cam, layer, row, cells, from + 1));
      }
    }
  }

  lemma {:induction false} AnimatedLayerPlan(anims: seq<TileAnimation.AnimatedTile>, reg: Registry, cam: Camera, layer: nat, rows: seq<seq<int>>, from: nat)
    requires from <= |rows|
    requires forall y, x :: 0 <= y < |rows| && 0 <= x < |rows[y]| ==> CellDefined(Animated(anims), reg, rows[y][x])
    ensures forall y, x :: 0 <= y < |rows| && 0 <= x < |rows[y]| ==> CellDefined(Static, reg, rows[y][x])
    ensures SameCells(LayerPlan(Animated(anims), reg, cam, layer, rows, from), LayerPlan(Static, reg, cam, layer, rows, from))
    decreases |rows| - from
  {
    forall y | 0 <= y < |rows|
      ensures forall x :: 0 <= x < |rows[y]| ==> CellDefined(Static, reg, rows[y][x])
    {
      AnimatedRowPlan(anims, reg, cam, layer, y, rows[y], |rows[y]|);
    }
    if from < |rows| {
      AnimatedRowPlan(anims, reg, cam, layer, from, rows[from], 0);
      AnimatedLayerPlan(anims, reg, cam, layer, rows, from + 1);
      ConcatSameCells(
        RowPlan(Animated(anims), reg, cam, layer, from, rows[from], 0), LayerPlan(Animated(anims), reg, cam, layer, rows, from + 1),
        RowPlan(Static, reg, cam, layer, from, rows[from], 0), LayerPlan(Static, reg, cam, layer, rows, from + 1));
    }
  }

  lemma {:induction false} AnimatedMapPlan(anims: seq<TileAnimation.AnimatedTile>, reg: Registry, cam: Camera, grid: Grid, from: nat)
    requires from <= |grid|
    requires GridDefined(Animated(anims), reg, grid)
    ensures GridDefined(Static, reg, grid)
    ensures SameCells(MapPlan(Animated(anims), reg, cam, grid, from), MapPlan(Static, reg, cam, grid, from))
    decreases |grid| - from
  {
    forall l | 0 <= l < |grid|
      ensures forall y, x :: 0 <= y < |grid[l]| && 0 <= x < |grid[l][y]| ==> CellDefined(Static, reg, grid[l][y][x])
    {
      AnimatedLayerPlan(anims, reg, cam, l, grid[l], |grid[l]|);
    }
    if from < |grid| {
      AnimatedLayerPlan(anims, reg, cam, from, grid[from], 0);
      AnimatedMapPlan(anims, reg, cam, grid, from + 1);
      ConcatSameCells(
        LayerPlan(Animated(anims), reg, cam, from, grid[from], 0), MapPlan(Animated(anims), reg, cam, grid, from + 1),
        LayerPlan(Static, reg, cam, from, grid[from], 0), MapPlan(Static, reg, cam, grid, from + 1));
    }
  }

  /** forAnimation.cpp's renderer issues as many draws as Game.cpp's, the k-th
      of each from the same tileset to the same screen rectangle. */
  lemma AnimatedRendersSameCells(anims: seq<TileAnimation.AnimatedTile>, reg: Registry, cam: Camera, grid: Grid)
    requires GridDefined(Animated(anims), reg, grid)
    ensures GridDefined(Static, reg, grid)
    ensures var a := RenderMapAnimated(grid, reg, anims, cam);
      var s := RenderMap(grid, reg, cam);
      && |a| == |s|
      && forall k :: 0 <= k < |a| ==> a[k].tileset == s[k].tileset && a[k].dst == s[k].dst
  {
    AnimatedMapPlan(anims, reg, cam, grid, 0);
  }

  lemma DrawsConcat(a: seq<Placed>, b: seq<Placed>)
    ensures Draws(a + b) == Draws(a) + Draws(b)
  {
    assert forall k :: 0 <= k < |a + b| ==> Draws(a + b)[k] == (Draws(a) + Draws(b))[k];
  }

  /** Appending row `y`'s draws to the draws so far leaves the rest of the
      layer, from row `y + 1` on, to be drawn. */
  lemma LayerDrawsStep(v: Variant, reg: Registry, cam: Camera, layer: nat, rows: seq<seq<int>>, y: nat, draws: seq<Draw>)
    requires y < |rows|
    requires forall y, x :: 0 <= y < |rows| && 0 <= x < |rows[y]| ==> CellDefined(v, reg, rows[y][x])
    ensures (draws + Draws(RowPlan(v, reg, cam, layer, y, rows[y], 0))) + Draws(LayerPlan(v, reg, cam, layer, rows, y + 1))
      == draws + Draws(LayerPlan(v, reg, cam, layer, rows, y))
  {
    var here := RowPlan(v, reg, cam, layer, y, rows[y], 0);
    var rest := LayerPlan(v, reg, cam, layer, rows, y + 1);
    assert LayerPlan(v, reg, cam, layer, rows, y) == here + rest;
    DrawsConcat(here, rest);
  }

  /** Appending layer `l`'s draws to the draws so far leaves the layers from
      `l + 1` on to be drawn. */
  lemma MapDrawsStep(v: Variant, reg: Registry, cam: Camera, grid: Grid, l: nat, draws: seq<Draw>)
    requires l < |grid|
    requires GridDefined(v, reg, grid)
    ensures (draws + Draws(LayerPlan(v, reg, cam, l, grid[l], 0))) + Draws(MapPlan(v, reg, cam, grid, l + 1))
      == draws + Draws(MapPlan(v, reg, cam, grid, l))
  {
    var here := LayerPlan(v, reg, cam, l, grid[l], 0);
    var rest := MapPlan(v, reg, cam, grid, l + 1);
    assert MapPlan(v, reg, cam, grid, l) == here + rest;
    DrawsConcat(here, rest);
  }

  /** The innermost loop of `renderMap`: the columns of one row. */
  method RowLoop(v: Variant, reg: Registry, cam: Camera, layer: nat, y: nat, cells: seq<int>) returns (draws: seq<Draw>)
    requires forall x :: 0 <= x < |cells| ==> CellDefined(v, reg, cells[x])
    ensures draws == Draws(RowPlan(v, reg, cam, layer, y, cells, 0))
  {
    draws := [];
    var x := 0;
    while x < |cells|
      invariant 0 <= x <= |cells|
      invariant draws + Draws(RowPlan(v, reg, cam, layer, y, cells, x)) == Draws(RowPlan(v, reg, cam, layer, y, cells, 0))
    {
      var d := CellDraw(v, reg, cam, cells[x], x, y);
      ghost var right := Draws(RowPlan(v, reg, cam, layer, y, cells, x + 1));
      if d.Some? {
        var q := [Placed(Cell(layer, y, x), d.value)];
        assert RowPlan(v, reg, cam, layer, y, cells, x) == q + RowPlan(v, reg, cam, layer, y, cells, x + 1);
        DrawsConcat(q, RowPlan(v, reg, cam, layer, y, cells, x + 1));
        assert Draws(q) == [d.value];
        assert (draws + [d.value]) + right == draws + ([d.value] + right);
        draws := draws + [d.value];
      } else {
        assert RowPlan(v, reg, cam, layer, y, cells, x) == RowPlan(v, reg, cam, layer, y, cells, x + 1);
      }
      x := x + 1;
    }
    assert Draws(RowPlan(v, reg, cam, layer, y, cells, x)) == [];
  }

  /** The middle loop of `renderMap`: the rows of one layer. */
  method LayerLoop(v: Variant, reg: Registry, cam: Camera, layer: nat, rows: seq<seq<int>>) returns (draws: seq<Draw>)
    requires forall y, x :: 0 <= y < |rows| && 0 <= x < |rows[y]| ==> CellDefined(v, reg, rows[y][x])
    ensures draws == Draws(LayerPlan(v, reg, cam, layer, rows, 0))
  {
    draws := [];
    var y := 0;
    while y < |rows|
      invariant 0 <= y <= |rows|
      invariant draws + Draws(LayerPlan(v, reg, cam, layer, rows, y)) == Draws(LayerPlan(v, reg, cam, layer, rows, 0))
    {
      var row := RowLoop(v, reg, cam, layer, y, rows[y]);
      LayerDrawsStep(v, reg, cam, layer, rows, y, draws);
      draws := draws + row;
      y := y + 1;
    }
    assert Draws(LayerPlan(v, reg, cam, layer, rows, y)) == [];
  }

  /** `renderMap`'s outer loop over the layers, issuing the draws one at a
      time. */
  method RenderLoops(v: Variant, reg: Registry, cam: Camera, grid: Grid) returns (draws: seq<Draw>)
    requires GridDefined(v, reg, grid)
    ensures draws == Render(v, reg, cam, grid)
  {
    draws := [];
    var layer := 0;
    while layer < |grid|
      invariant 0 <= layer <= |grid|
      invariant draws + Draws(MapPlan(v, reg, cam, grid, layer)) == Render(v, reg, cam, grid)
    {
      var here := LayerLoop(v, reg, cam, layer, grid[layer]);
      MapDrawsStep(v, reg, cam, grid, layer, draws);
      draws := draws + here;
      layer := layer + 1;
    }
    assert Draws(MapPlan(v, reg, cam, grid, layer)) == [];
  }
}

=== FILE: tiles.dfy ===
/** Tilesets, the registry they are kept in, and the arithmetic that turns a
    global tile id (gid) into a source rectangle inside a tileset image and a
    map cell into a destination rectangle on screen. Shared by both
    `renderMap` functions (Game.cpp and forAnimation.cpp). */
module Tiles {
  import opened Wrappers
  import CInt

  /** Edge of one map cell on screen, in pixels. */
  const TILE_SIZE: int := 64

  /** One registry entry. `hasTexture` stands for the texture handle being
      non-null; the texture itself is outside the model. */
  datatype Tileset = Tileset(
    firstGid: int,
    tileWidth: int,
    tileHeight: int,
    imageWidth: int,
    imageHeight: int,
    hasTexture: bool)

  /** The tileset registry, in the order the map declared the tilesets. */
  type Registry = seq<Tileset>

  /** An `SDL_Rect`. */
  datatype Rect = Rect(x: int, y: int, w: int, h: int)

  /** The camera: a viewport offset into the map and the viewport size. */
  datatype Camera = Camera(x: int, y: int, width: int, height: int)

  /** One `SDL_RenderCopy` call: the registry index whose texture is drawn,
      and the source and destination rectangles. */
  datatype Draw = Draw(tileset: nat, src: Rect, dst: Rect)

  /** Entry `i` is the last entry of the registry whose `firstGid` does not
      exceed `gid`. */
  predicate IsLastMatch(reg: Registry, gid: int, i: int) {
    && 0 <= i < |reg|
    && reg[i].firstGid <= gid
    && forall j :: i < j < |reg| ==> gid < reg[j].firstGid
  }

  /** No entry of the registry starts at or below `gid`. */
  predicate NoMatch(reg: Registry, gid: int) {
    forall j :: 0 <= j < |reg| ==> gid < reg[j].firstGid
  }

  /** The tileset a gid belongs to: the last one in registry order whose
      `firstGid` is at most the gid, or none. */
  function Resolve(reg: Registry, gid: int): (r: Option<nat>)
    ensures r.Some? ==> IsLastMatch(reg, gid, r.value)
    ensures r.None? <==> NoMatch(reg, gid)
    decreases |reg|
  {
    if |reg| == 0 then None
    else if reg[|reg| - 1].firstGid <= gid then Some(|reg| - 1)
    else Resolve(reg[..|reg| - 1], gid)
  }

  /** The scan the renderer performs: walk the whole registry front to back and
      remember every entry that matches, so that the last one wins. */
  method ResolveScan(reg: Registry, gid: int) returns (found: Option<nat>)
    ensures found == Resolve(reg, gid)
  {
    found := None;
    var k := 0;
    while k < |reg|
      invariant 0 <= k <= |reg|
      invariant found == Resolve(reg[..k], gid)
    {
      assert reg[..k + 1][..k] == reg[..k];
      if gid >= reg[k].firstGid {
        found := Some(k);
      }
      k := k + 1;
    }
    assert reg[..|reg|] == reg;
  }

  /** The last match is the only answer `Resolve` can give. */
  lemma ResolveIsLastMatch(reg: Registry, gid: int, i: int)
    ensures Resolve(reg, gid) == Some(i) <==> IsLastMatch(reg, gid, i)
  {
    if IsLastMatch(reg, gid, i) {
      var r := Resolve(reg, gid);
      assert r.Some? by {
        assert !NoMatch(reg, gid);
      }
    }
  }

  /** `firstGid` strictly increasing in registry order: what a map editor
      writes, though nothing in the loader checks it. */
  predicate Ascending(reg: Registry) {
    forall i, j :: 0 <= i < j < |reg| ==> reg[i].firstGid < reg[j].firstGid
  }

  /** On an ascending registry the last match is also the tileset with the
      highest `firstGid` not above the gid. */
  lemma ResolveAscendingIsHighest(reg: Registry, gid: int)
    requires Ascending(reg)
    ensures Resolve(reg, gid).Some? ==>
      forall j :: 0 <= j < |reg| && reg[j].firstGid <= gid ==>
        reg[j].firstGid <= reg[Resolve(reg, gid).value].firstGid
  {
  }

  /** A sample sheet starting at `firstGid`, used by the examples below. */
  function SampleSheet(firstGid: int): Tileset {
    Tileset(firstGid, 64, 64, 640, 640, true)
  }

  /** Registry starts [1, 50, 100]: gid 75 belongs to the sheet starting at
      50, gid 150 to the one at 100, and gids 0 and -3 to none. */
  lemma ResolveExamples()
    ensures var reg := [SampleSheet(1), SampleSheet(50), SampleSheet(100)];
      && Resolve(reg, 75) == Some(1) && reg[1].firstGid == 50
      && Resolve(reg, 150) == Some(2) && reg[2].firstGid == 100
      && Resolve(reg, 1) == Some(0)
      && Resolve(reg, 0) == None && Resolve(reg, -3) == None
  {
    var reg := [SampleSheet(1), SampleSheet(50), SampleSheet(100)];
    assert reg[..2] == [SampleSheet(1), SampleSheet(50)];
    assert reg[..2][..1] == [SampleSheet(1)];
    assert reg[..2][..1][..0] == [];
  }

  /** When the map declares its tilesets out of order the last match is not
      the highest start: registry starts [50, 1] send gid 75 to the sheet at 1. */
  lemma ResolveOutOfOrder()
    ensures var reg := [SampleSheet(50), SampleSheet(1)];
      Resolve(reg, 75) == Some(1) && reg[1].firstGid < reg[0].firstGid <= 75
  {
  }

  /** The divisions the renderer performs on a tileset are all defined:
      `imageWidth / tileWidth`, `imageHeight / tileHeight` and the remainder
      by the column count. */
  predicate SheetDefined(ts: Tileset) {
    ts.tileWidth != 0 && ts.tileHeight != 0 && CInt.Div(ts.imageWidth, ts.tileWidth) != 0
  }

  /** Tiles per row of the tileset image (`cols`). */
  function Columns(ts: Tileset): int
    requires ts.tileWidth != 0
  {
    CInt.Div(ts.imageWidth, ts.tileWidth)
  }

  /** Tile rows in the tileset image (`rows`, computed but unused by the renderer). */
  function Rows(ts: Tileset): int
    requires ts.tileHeight != 0
  {
    CInt.Div(ts.imageHeight, ts.tileHeight)
  }

  /** The source rectangle of local tile index `idx` in the sheet `ts`. */
  function SourceRect(ts: Tileset, idx: int): (r: Rect)
    requires SheetDefined(ts)
    ensures r.w == ts.tileWidth && r.h == ts.tileHeight
  {
    var cols := Columns(ts);
    Rect(CInt.Mod(idx, cols) * ts.tileWidth, CInt.Div(idx, cols) * ts.tileHeight, ts.tileWidth, ts.tileHeight)
  }

  /** The local tile index a source rectangle was cut from (row-major). */
  function TileIndexAt(ts: Tileset, r: Rect): int
    requires ts.tileWidth > 0 && ts.tileHeight > 0
  {
    (r.y / ts.tileHeight) * Columns(ts) + r.x / ts.tileWidth
  }

  /** A sheet whose dimensions are positive and at least one tile wide. */
  predicate PositiveSheet(ts: Tileset) {
    ts.tileWidth > 0 && ts.tileHeight > 0 && ts.imageWidth >= ts.tileWidth
  }

  /** For a non-negative index into a positive sheet, the source rectangle lies
      on the tile grid, inside the image horizontally (and vertically when the
      index is within the sheet), and gives the index back. */
  lemma SourceRectInSheet(ts: Tileset, idx: int)
    requires PositiveSheet(ts) && idx >= 0
    ensures SheetDefined(ts)
    ensures var r := SourceRect(ts, idx);
      && 0 <= r.x && r.x + r.w <= Columns(ts) * ts.tileWidth <= ts.imageWidth
      && 0 <= r.y
      && r.x % ts.tileWidth == 0 && r.y % ts.tileHeight == 0
      && TileIndexAt(ts, r) == idx
      && (idx < Columns(ts) * Rows(ts) ==> r.y + r.h <= ts.imageHeight)
  {
    var tw, th := ts.tileWidth, ts.tileHeight;
    ColumnsFit(ts);
    var cols := Columns(ts);
    var col, row := idx % cols, idx / cols;
    assert CInt.Mod(idx, cols) == col && CInt.Div(idx, cols) == row by {
      CInt.DivModNonNegative(idx, cols);
    }
    CInt.GridPosition(idx, cols);
    var r := SourceRect(ts, idx);
    assert r.x == col * tw && r.y == row * th;
    assert r.x + r.w <= cols * tw by {
      CInt.MulMonotone(col + 1, cols, tw);
    }
    assert r.x / tw == col && r.x % tw == 0 by {
      CInt.MultipleOf(col, tw);
    }
    assert r.y / th == row && r.y % th == 0 by {
      CInt.MultipleOf(row, th);
    }
    assert 0 <= r.x && 0 <= r.y by {
      CInt.MulMonotone(0, col, tw);
      CInt.MulMonotone(0, row, th);
    }
    assert TileIndexAt(ts, r) == row * cols + col;
    if idx < cols * Rows(ts) {
      RowsFit(ts, idx, row);
    }
  }

  /** A positive sheet has at least one column, and its columns fit in the image. */
  lemma ColumnsFit(ts: Tileset)
    requires PositiveSheet(ts)
    ensures ts.imageWidth >= 0 && Columns(ts) == ts.imageWidth / ts.tileWidth
    ensures Columns(ts) >= 1 && Columns(ts) * ts.tileWidth <= ts.imageWidth
    ensures SheetDefined(ts)
  {
    var tw := ts.tileWidth;
    CInt.DivModNonNegative(ts.imageWidth, tw);
    var cols := ts.imageWidth / tw;
    assert ts.imageWidth == cols * tw + ts.imageWidth % tw;
    if cols < 1 {
      CInt.MulMonotone(cols, 0, tw);
    }
  }

  /** The row of an index below `cols * rows` ends inside the image. */
  lemma RowsFit(ts: Tileset, idx: int, row: int)
    requires PositiveSheet(ts) && idx >= 0
    requires SheetDefined(ts) && Columns(ts) >= 1 && row == idx / Columns(ts)
    requires idx < Columns(ts) * Rows(ts)
    ensures (row + 1) * ts.tileHeight <= ts.imageHeight
  {
    var cols, rows, th := Columns(ts), Rows(ts), ts.tileHeight;
    CInt.GridPosition(idx, cols);
    assert rows >= 1 by {
      if rows < 1 {
        CInt.MulNonPositive(cols, rows);
      }
    }
    assert row < rows by {
      if row >= rows {
        CInt.MulMonotone(rows, row, cols);
      }
    }
    assert ts.imageHeight >= 0;
    CInt.DivModNonNegative(ts.imageHeight, th);
    CInt.MulMonotone(row + 1, rows, th);
    assert ts.imageHeight == rows * th + ts.imageHeight % th;
  }

  /** The destination rectangle of the map cell in column `col`, row `row`:
      the cell's pixel position relative to the camera, computed in `size_t`
      arithmetic and cast back to `int`, sized like a tile of the sheet. */
  function DestRect(ts: Tileset, col: nat, row: nat, cam: Camera): (r: Rect)
    ensures CInt.IsInt32(r.x) && CInt.IsInt32(r.y)
    ensures r.w == ts.tileWidth && r.h == ts.tileHeight
  {
    Rect(CInt.WrapInt32(col * TILE_SIZE - cam.x), CInt.WrapInt32(row * TILE_SIZE - cam.y), ts.tileWidth, ts.tileHeight)
  }

  /** Whenever the screen position fits in an `int`, the destination rectangle
      gives back the cell it was computed for. */
  lemma DestRectGivesCell(ts: Tileset, col: nat, row: nat, cam: Camera)
    requires CInt.IsInt32(col * TILE_SIZE - cam.x) && CInt.IsInt32(row * TILE_SIZE - cam.y)
    ensures var r := DestRect(ts, col, row, cam);
      && (r.x + cam.x) / TILE_SIZE == col && (r.x + cam.x) % TILE_SIZE == 0
      && (r.y + cam.y) / TILE_SIZE == row && (r.y + cam.y) % TILE_SIZE == 0
  {
    var r := DestRect(ts, col, row, cam);
    assert r.x + cam.x == col * TILE_SIZE;
    assert r.y + cam.y == row * TILE_SIZE;
    CInt.DivModUnique(col * TILE_SIZE, TILE_SIZE, col, 0);
    CInt.DivModUnique(row * TILE_SIZE, TILE_SIZE, row, 0);
  }

  /** Moving the camera by `dx` moves every in-range destination by `-dx`. */
  lemma DestRectFollowsCamera(ts: Tileset, col: nat, row: nat, cam: Camera, dx: int, dy: int)
    requires CInt.IsInt32(col * TILE_SIZE - cam.x) && CInt.IsInt32(row * TILE_SIZE - cam.y)
    requires CInt.IsInt32(col * TILE_SIZE - cam.x - dx) && CInt.IsInt32(row * TILE_SIZE - cam.y - dy)
    ensures DestRect(ts, col, row, cam.(x := cam.x + dx, y := cam.y + dy)).x == DestRect(ts, col, row, cam).x - dx
    ensures DestRect(ts, col, row, cam.(x := cam.x + dx, y := cam.y + dy)).y == DestRect(ts, col, row, cam).y - dy
  {
  }
}

=== FILE: wrappers.dfy ===
/** The optional value used wherever the C++ code leaves a handle null or an index unset. */
module Wrappers {

  datatype Option<+T> = None | Some(value: T)
}
